=== FILE: README.md ===
# Finance tracker backend: a Dafny model

This project models the server side of a personal finance tracker. Users
register and log in. They record income and expense transactions. They list
their transactions with filters and pages, and read a monthly summary and
the list of categories. The model covers:

- the transaction endpoints: list, get, create, update, delete, summary and
  categories;
- the register and login endpoints;
- the checks that the request bodies' validation attributes impose;
- the `Transaction` entity and its `TransactionType` enum;
- the constraints the database context configures.

Every endpoint is a pure function. It takes the store (`AppDb.Db`: both
tables and the next value of each identity column) and the caller's user id,
which the framework takes from the validated token. Endpoints that write
return the new store together with the response (`AppDb.Step`). Responses
are values of `Outcomes.Result`: either a value or one of four error kinds,
namely validation failure (400), bad request (400), not found (404) and
server error (500).

Choices the model makes:

- **Money.** Amounts are whole cents. The amount column is `decimal(18,2)`,
  so an amount fits when it has at most 18 digits. A larger one makes the
  insert fail with 500 and stores nothing.
- **Dates.** A `DateTime` is a valid calendar instant between 0001-01-01 and
  9999-12-31. Its tick count orders dates. `AddDays` fails past the last
  representable day, as the framework's does.
- **String comparison.** Email and category comparisons are case-sensitive,
  as on the PostgreSQL provider the program configures. The category
  filter compares lower-cased text.
- **Text lengths.** The MaxLength and MinLength attributes count UTF-16
  code units, so a character beyond the Basic Multilingual Plane counts
  twice (`Text.Utf16Length`). The varchar columns count characters.
- **Hashing and tokens.** The password hasher and the token issuer belong to
  an authentication service that is not part of this model. Both are
  parameters (`Auth.Hasher`, `issue`). The one property of the hasher the
  endpoints rely on is that a password verifies against its own hash.
  Only the lemma that needs it assumes it, for the one password involved.
- **Clock.** The current time is a parameter (`now`).

Modules, one per file:

| file | module | contents |
|---|---|---|
| `outcomes.dfy` | `Outcomes` | `Option`, error kinds, `Result` |
| `calendar.dfy` | `Calendar` | calendar dates and times, tick counts, `AddDays` |
| `text.dfy` | `Text` | blankness, lower-casing, `Contains`, ordinal order |
| `seqs.dfy` | `Seqs` | `Where`, `Sum`, `OrderByDescending` over sequences |
| `transaction_model.dfy` | `TransactionModel` | the entity and the enum |
| `app_db.dfy` | `AppDb` | the store and its schema constraints |
| `transaction_dto.dfy` | `TransactionDtos` | the transaction DTOs and their validation |
| `login_dto.dfy` | `AuthDtos` | the login and register DTOs and their validation |
| `transactions.dfy` | `Transactions` | list, get, create, update, delete |
| `transaction_laws.dfy` | `TransactionLaws` | store invariant, read-back, isolation |
| `summary.dfy` | `Summary` | the monthly summary |
| `categories.dfy` | `Categories` | the category list |
| `auth.dfy` | `Auth` | register and login |
| `paging.dfy` | `Paging` | the list endpoint on raw 32-bit query values |

Paths in the table below are relative to the repository root.

## Model

| member | source | states |
|---|---|---|
| TransactionModel.TypeFromCode | Backend/api/Models/Transaction.cs:32-36 | A number names an enum member exactly when it is 1 (Income) or 2 (Expense), and the member found has that number. |
| TransactionModel.TypeCodeRoundTrip | Backend/api/Models/Transaction.cs:32-36 | Every member's number decodes back to that member, and there are exactly two members. |
| Outcomes.ApiError.Status | Backend/api/Controllers/TransactionsController.cs:77-96 | Not found answers 404, a server error 500, and a validation failure or bad request 400, and each code comes from exactly those kinds. |
| Calendar.NextDay | Backend/api/Controllers/AuthController.cs:46 | Fails exactly on 9999-12-31. Otherwise it keeps the time of day and advances the day count by one, across month and year ends and leap days. |
| Calendar.AddDays | Backend/api/Controllers/AuthController.cs:46 | Fails exactly when the day n days later lies after 9999-12-31, where the framework throws. Otherwise the result is exactly n days of ticks later, at the same time of day. |
| Calendar.DayNumberAtMost | Backend/api/Controllers/AuthController.cs:46 | No representable day lies after 9999-12-31, day 3652058, and only that day has that number. |
| Calendar.MonthsFillYear | Backend/api/Controllers/AuthController.cs:46 | The twelve months add up to the year's length, 365 or 366 days. |
| Text.Contains | Backend/api/Controllers/TransactionsController.cs:33 | The search answers true exactly when the needle occurs somewhere in the haystack. |
| Text.LessTotal | Backend/api/Controllers/TransactionsController.cs:288 | The ordinal order compares any two different strings, one way or the other. |
| Text.LessTransitive | Backend/api/Controllers/TransactionsController.cs:288 | The ordinal order is transitive. |
| Text.LessIrreflexive | Backend/api/Controllers/TransactionsController.cs:288 | No string sorts before itself. |
| Text.Utf16LengthBounds | Backend/api/Models/TransactionDto.cs:21 | The length that MaxLength and MinLength compare, in UTF-16 code units, is between one and two units per character, and equals the character count exactly when no character lies beyond the Basic Multilingual Plane. |
| AppDb.EmptyIsValid | Backend/api/Data/AppDbContext.cs:16-37 | A store with no rows meets every constraint of the schema. |
| AppDb.Owned | Backend/api/Controllers/TransactionsController.cs:29-30 | The rows kept are exactly the caller's rows. |
| AppDb.OwnedCounts | Backend/api/Controllers/TransactionsController.cs:29-30 | Each of the caller's rows is kept exactly as often as it is stored, and no other row is kept. |
| AppDb.DeleteUser | Backend/api/Data/AppDbContext.cs:33-36 | Deleting a user removes exactly that user and, through the cascade, exactly the transactions it owns. |
| AppDb.DeleteUserKeepsOthers | Backend/api/Data/AppDbContext.cs:33-36 | Every other user keeps exactly its transactions, in order. |
| AppDb.DeleteUserPreservesSchema | Backend/api/Data/AppDbContext.cs:16-37 | The cascade keeps the schema valid, so no transaction points at a missing user. |
| TransactionDtos.ToDtoForgetsOnlyOwner | Backend/api/Models/TransactionDto.cs:3-12 | The projection drops the owner and nothing else: two rows project alike exactly when they differ at most in the owner. |
| TransactionDtos.FieldErrors | Backend/api/Models/TransactionDto.cs:14-33 | A field is reported exactly when its check fails, with MaxLength measured in UTF-16 code units. The list is empty exactly when every check passes. |
| TransactionDtos.CreateErrors | Backend/api/Models/TransactionDto.cs:14-33 | A create body gets no errors exactly when it is valid. |
| TransactionDtos.UpdateErrors | Backend/api/Models/TransactionDto.cs:35-54 | An update body gets no errors exactly when it is valid. |
| TransactionDtos.UpdateValidationIsCreateValidation | Backend/api/Models/TransactionDto.cs:14-54 | Update bodies are checked exactly as create bodies and get the same errors. |
| TransactionDtos.ValidCreateFitsColumns | Backend/api/Models/TransactionDto.cs:14-33 | A valid body has a positive amount and non-empty text within the column limits. |
| TransactionDtos.UndefinedTypeAccepted | Backend/api/Models/TransactionDto.cs:31-32 | A body with type number 3 passes the checks as written although 3 names no member. The corrected check refuses it. |
| TransactionDtos.ValidCreateDecodesType | Backend/api/Models/TransactionDto.cs:31-32 | A body passes the corrected check exactly when it passes the checks as written and its type number names a member. |
| AuthDtos.EmailAddressMeansOneInnerAt | Backend/api/Models/LoginDto.cs:5-7 | The email check accepts exactly the strings with one '@' that has a character on each side. |
| AuthDtos.LoginErrors | Backend/api/Models/LoginDto.cs:3-12 | Email and Password are each reported exactly when their check fails, with MinLength measured in UTF-16 code units. The list is empty exactly when the body is valid. |
| AuthDtos.ThreeEmojiAreLongEnough | Backend/api/Models/LoginDto.cs:10 | A password of three characters beyond the Basic Multilingual Plane is six UTF-16 units and passes MinLength(6). |
| AuthDtos.RegisterErrors | Backend/api/Models/LoginDto.cs:13-31 | Name, Email, Password and ConfirmPassword are each reported exactly when their check fails, with MaxLength and MinLength measured in UTF-16 code units. The list is empty exactly when the body is valid. |
| AuthDtos.ValidRegisterFitsColumns | Backend/api/Models/LoginDto.cs:13-31 | A valid registration fits the user columns, and its two password fields are equal. |
| Transactions.ProjectAppend | Backend/api/Controllers/TransactionsController.cs:44-53 | The projection of two runs of rows joined is the two projections joined, so projecting a page commutes with splitting it. |
| Transactions.Matching | Backend/api/Controllers/TransactionsController.cs:29-36 | A row matches exactly when it is the caller's and passes both filters. The category filter is a lower-cased substring test that an absent or empty filter skips. |
| Transactions.MatchingCounts | Backend/api/Controllers/TransactionsController.cs:29-38 | Each matching row appears exactly as often as it is stored and no other row appears, so the count header is the number of matching rows in the store. |
| Transactions.NewestFirst | Backend/api/Controllers/TransactionsController.cs:41 | The ordered rows are a permutation of the input. |
| Transactions.NewestFirstIsSorted | Backend/api/Controllers/TransactionsController.cs:41 | The ordered rows have non-increasing dates. |
| Transactions.OffsetIsProduct | Backend/api/Controllers/TransactionsController.cs:42 | The offset of a page is (page - 1) * pageSize. |
| Transactions.Slice | Backend/api/Controllers/TransactionsController.cs:42-43 | Skip and Take yield at most size elements from the offset, and fewer only at the end of the rows. |
| Transactions.List | Backend/api/Controllers/TransactionsController.cs:38-58 | The count header is the number of matching rows, the page headers echo the query, and a page holds at most pageSize items. |
| Transactions.ListIsPageOfNewestFirst | Backend/api/Controllers/TransactionsController.cs:40-54 | The page is the run of matching rows, newest first, that starts at the page's offset, as many as fit. |
| Transactions.ListShowsOnlyOwnMatchingRows | Backend/api/Controllers/TransactionsController.cs:29-54 | Every listed item is the projection of one of the caller's rows that passes the filters. |
| Transactions.ListIsNewestFirst | Backend/api/Controllers/TransactionsController.cs:41 | Items on a page never get newer from first to last. |
| Transactions.NextPageItems | Backend/api/Controllers/TransactionsController.cs:42-43 | Page p + 1 is the slice of the same sorted rows one page size further on. |
| Transactions.PagesTile | Backend/api/Controllers/TransactionsController.cs:42-43 | Two consecutive slices of one size together are the slice of twice the size, so pages neither overlap nor leave gaps. |
| Transactions.SecondPageOfFive | Backend/api/Controllers/TransactionsController.cs:38-43 | Over five rows of the caller stored with strictly decreasing dates, page 2 of size 2 holds the third and fourth rows, and the total count is 5. |
| Transactions.ListSeesOnlyOwnRows | Backend/api/Controllers/TransactionsController.cs:29-30 | The list depends on nothing but the caller's rows. |
| Transactions.FindOwned | Backend/api/Controllers/TransactionsController.cs:155-156 | Finds the first of the caller's rows with the given id, and fails exactly when the caller has no such row. |
| Transactions.Get | Backend/api/Controllers/TransactionsController.cs:77-96 | Succeeds exactly when the caller owns a row with that id, and shows such a row. Otherwise it answers 404 "Transaction not found". |
| Transactions.Create | Backend/api/Controllers/TransactionsController.cs:113-138 | An invalid body is refused with its failing fields. The insert succeeds exactly when the body is valid, the amount fits the column and the caller's user exists. The new row comes last, takes the next id, copies the body, belongs to the caller and is stamped with now; the response shows it. A failure stores nothing. |
| Transactions.Update | Backend/api/Controllers/TransactionsController.cs:155-182 | An invalid body is refused. Another user's or a missing row answers 404. An amount the decimal(18,2) column cannot hold answers 500 and changes nothing. Otherwise only the caller's row with that id changes: its editable fields take the body's values, and its id, owner and creation time stay. |
| Transactions.Delete | Backend/api/Controllers/TransactionsController.cs:199-210 | Removes exactly the caller's row with that id and keeps every other row in order. A missing or foreign row answers 404 and changes nothing. |
| TransactionLaws.EmptySatisfiesInvariant | Backend/api/Data/AppDbContext.cs:25-37 | An empty store satisfies the invariant the endpoints keep. |
| TransactionLaws.CreatePreservesInvariant | Backend/api/Controllers/TransactionsController.cs:113-125 | Creating keeps the schema constraints and the validity of every stored row. |
| TransactionLaws.CreateRejectsNonPositiveAmount | Backend/api/Models/TransactionDto.cs:16-18 | An amount of zero or less is refused by validation, with Amount among the failing fields, and nothing is stored. |
| TransactionLaws.UpdatePreservesInvariant | Backend/api/Controllers/TransactionsController.cs:155-169 | Updating keeps the invariant. |
| TransactionLaws.DeletePreservesInvariant | Backend/api/Controllers/TransactionsController.cs:199-208 | Deleting keeps the invariant. |
| TransactionLaws.GetShowsTheRow | Backend/api/Controllers/TransactionsController.cs:77-96 | With distinct ids, Get shows exactly the caller's row with the requested id. |
| TransactionLaws.CreateThenGet | Backend/api/Controllers/TransactionsController.cs:113-138 | A created row reads back as the create response showed it. |
| TransactionLaws.UpdateThenGet | Backend/api/Controllers/TransactionsController.cs:155-182 | An updated row reads back as the update response showed it. |
| TransactionLaws.DeleteThenGet | Backend/api/Controllers/TransactionsController.cs:199-210 | After a delete, the id answers 404. |
| TransactionLaws.CreateKeepsOthers | Backend/api/Controllers/TransactionsController.cs:113-125 | Creating leaves every other user's rows and the users table as they were. |
| TransactionLaws.UpdateKeepsOthers | Backend/api/Controllers/TransactionsController.cs:155-169 | Updating leaves every other user's rows and the users table as they were. |
| TransactionLaws.DeleteKeepsOthers | Backend/api/Controllers/TransactionsController.cs:199-208 | Deleting leaves every other user's rows and the users table as they were. |
| TransactionLaws.ForeignRowLooksMissing | Backend/api/Controllers/TransactionsController.cs:155-160 | Another user's row cannot be told from a missing one: get, update and delete all answer 404 and change nothing. |
| Summary.PeriodRows | Backend/api/Controllers/TransactionsController.cs:230-232 | The period holds exactly the caller's rows dated in the month and year of now. |
| Summary.PeriodCounts | Backend/api/Controllers/TransactionsController.cs:230-232 | Each of the caller's rows of the month appears exactly as often as it is stored and no other row appears, so the totals and the count see every such row once. |
| Summary.AddExpenseAdds | Backend/api/Controllers/TransactionsController.cs:239-241 | Adding an expense adds its amount to the group of its category. It opens a group at the end for a new category, and it raises the grand total by the amount. |
| Summary.GroupExpensesGroups | Backend/api/Controllers/TransactionsController.cs:238-241 | The groups have distinct categories. There is one group for each category with an expense. Each group holds that category's expense total, and the groups add up to the expense total. |
| Summary.Breakdown | Backend/api/Controllers/TransactionsController.cs:238-243 | The breakdown is ordered by amount, largest first. It lists each category with an expense exactly once, with its total, and its amounts add up to the expense total. |
| Summary.GetSummary | Backend/api/Controllers/TransactionsController.cs:227-254 | Income and expense totals are over the period's rows, and balance is their difference. The count covers every row of the period. The breakdown is as above, and month and year are those of now. |
| Summary.TotalsSplit | Backend/api/Controllers/TransactionsController.cs:234-236 | Income plus expenses is the sum of all amounts, and the two counts add up to the number of rows. |
| Summary.SummaryCountsEveryRow | Backend/api/Controllers/TransactionsController.cs:234-250 | The summary counts every row of the month once, as income or as expense. |
| Summary.SummarySeesOnlyOwnRows | Backend/api/Controllers/TransactionsController.cs:230-232 | The summary depends on nothing but the caller's rows. |
| Summary.ExampleSummary | Backend/api/Controllers/TransactionsController.cs:227-254 | For income 1000 and expenses of 200 and 50 on Food and 100 on Travel, the summary is 1000, 350, 650, 4 and [Food 250, Travel 100]. |
| Categories.InsertSorted | Backend/api/Controllers/TransactionsController.cs:286-289 | Inserting keeps the list strictly ascending and adds exactly the new string. |
| Categories.SortDistinct | Backend/api/Controllers/TransactionsController.cs:286-289 | Union followed by ordering gives a strictly ascending list of exactly the input's strings. |
| Categories.UsedCategories | Backend/api/Controllers/TransactionsController.cs:280-284 | The list holds exactly the categories of the caller's rows. |
| Categories.GetCategories | Backend/api/Controllers/TransactionsController.cs:272-289 | The answer is strictly ascending, so it has no duplicates. A string is in it exactly when it is a built-in category or one of the caller's categories. |
| Categories.AscendingIsUnique | Backend/api/Controllers/TransactionsController.cs:286-289 | A strictly ascending list is determined by its elements, so the answer is the only sorted listing of that set. |
| Categories.DefaultsAlwaysListed | Backend/api/Controllers/TransactionsController.cs:272-278 | All fourteen built-in categories are always listed. |
| Categories.CategoriesSeeOnlyOwnRows | Backend/api/Controllers/TransactionsController.cs:280-282 | The category list depends on nothing but the caller's rows. |
| Auth.FirstByEmail | Backend/api/Controllers/AuthController.cs:63 | Finds the first user with the email, and fails exactly when no user has it. |
| Auth.Register | Backend/api/Controllers/AuthController.cs:18-56 | An invalid body is refused with its failing fields, and a taken email answers 400 with the store unchanged. Otherwise the user is stored with the next id and the hashed password. The response carries the token, the name and email, and an expiry seven days on; it is 500 when that expiry is not representable. |
| Auth.Login | Backend/api/Controllers/AuthController.cs:58-92 | An invalid body is refused. An unknown email and a wrong password both answer 400 "Invalid email or password". Otherwise the response is the first user's token, name and email with an expiry seven days on. |
| Auth.RegisterPreservesInvariant | Backend/api/Controllers/AuthController.cs:23-37 | Registration keeps the store valid, emails unique in particular. |
| Auth.RegisterTwiceRejected | Backend/api/Controllers/AuthController.cs:23-26 | A second registration with the same email is refused and changes nothing. |
| Auth.RegisterThenLogin | Backend/api/Controllers/AuthController.cs:28-85 | If the password verifies against its own hash, a user who has just registered can log in with the same credentials. The login returns their own name, email and token. This holds even when the registration answered 500 after saving the user. |
| Auth.LoginFailuresLookAlike | Backend/api/Controllers/AuthController.cs:65-73 | An unknown email and a wrong password get identical answers. |
| Auth.OnlyUserWithEmail | Backend/api/Controllers/AuthController.cs:63 | With unique emails, the user the lookup finds is the one with that email. |
| Auth.LoginSucceedsIff | Backend/api/Controllers/AuthController.cs:63-85 | With unique emails, a valid login succeeds exactly when some user has that email, the password verifies against its hash and the expiry is representable. |
| Paging.Wrap32 | Backend/api/Controllers/TransactionsController.cs:42 | The result is the 32-bit value congruent to the input, and it equals the input when that already fits. |
| Paging.AsWrittenAgreesWithoutOverflow | Backend/api/Controllers/TransactionsController.cs:42 | The endpoint as written and the corrected one give the same answer whenever (page - 1) * pageSize fits in 32 bits, so the wrap-around is their only difference. |
| Paging.GetTransactions | Backend/api/Controllers/TransactionsController.cs:18-67 | Corrected: it answers 500 exactly when the page size is negative, or the page is below 1 with a positive size. From page 1 with a positive size it answers the list, and with size 0 it answers an empty page. |
| Paging.GetTransactionsUsesTrueOffset | Backend/api/Controllers/TransactionsController.cs:42 | The corrected endpoint fails exactly when the true offset or the page size is negative, and otherwise answers the page at the true offset. |
| Paging.PagesPastTheEndAreEmpty | Backend/api/Controllers/TransactionsController.cs:42-43 | A page starting at or past the last matching row is empty. |
| Paging.WrappedOffsetRepeatsFirstPage | Backend/api/Controllers/TransactionsController.cs:42 | Over one row, page 65537 of size 65536 shows that row as written but is empty when corrected. |

## Left out

- Logging, `async`, HTTP routing and the framework's model binding are not modelled. Each endpoint is one function call.
- The catch blocks are modelled only where the failure comes from data the model has. These are an amount that overflows the column, a missing owner row, an unrepresentable expiry, and a negative offset or page size. Connection and other provider failures, which also answer 500, are not modelled.
- Hashing, token signing and token validation belong to the authentication service, which is not part of this model. The hasher and token issuer are parameters. The only fact used about them is that a password verifies against its own hash. Salting and the rejection of wrong passwords are not stated.
- The validate-token endpoint returns a constant and needs the token middleware, which is not modelled.
- Reading the user id from the token's claims is not modelled, because the caller's id is a parameter. A token without a numeric id claim, which answers with an error, is not modelled either.
- Concurrency is not modelled. Each request is atomic. The unique index rejecting a second concurrent registration with the same email is therefore not modelled.
- Identity values consumed by failed inserts are not modelled. A failed insert leaves the next id unchanged.
- Time zones and the `Kind` of `DateTime` values are not modelled. The summary uses local time, while creation and registration use UTC. Both reads of the UTC clock in one request are taken as the same `now`. The summary reads the local clock twice, once for the month and once for the year (TransactionsController.cs:227-228). Both reads are taken as the same `now`, so a request at midnight on 31 December that pairs December with the next year is not modelled.
- Amounts with more than two decimals are not modelled (the column rounds them). Overflow of the `decimal` sums in the summary is not modelled either, since the sums are unbounded integers.
- TransactionDtos.FieldErrors, CreateErrors, UpdateErrors, Transactions.Create and Transactions.Update use the corrected type check: a type number other than 1 or 2 is refused with 400 and "Type" reported. The source as written has no check that can fail for the type, so it accepts such a body, stores the row and answers 201 or 200. This is the second row under "## Findings"; `TransactionDtos.ValidCreateAsWritten` models the check as written.
- Summary.TotalsSplit and Summary.SummaryCountsEveryRow hold under the corrected type check only. As written, a stored row with type 3 (second row under "## Findings") would be counted by `transactionCount` but would be in neither total. The model's `TransactionType` has only the two declared members, so it cannot hold such a row.
- `Text.IsWhiteSpace` covers the Latin-1 white-space characters only. Other Unicode white space is not modelled.
- Transactions.Matching: lower-casing is ASCII only. PostgreSQL's `lower` also folds non-ASCII letters according to the database locale.
- Categories.GetCategories: orders by ordinal character codes. `OrderBy` on strings uses the current culture's comparison, which can order mixed-case and non-ASCII strings differently.
- Transactions.NewestFirst: rows with equal dates stay in store order, while the database leaves their order unspecified. The contract states only the permutation and the date order, so it does not depend on this choice. `Seqs.SortDescKeepsSorted`, which states that the model's sort leaves ordered input as it is, is a fact about the model's tie order and not about the endpoint. The endpoint lemma built on it, `Transactions.SecondPageOfFive`, requires distinct dates.
- Summary.Breakdown: groups with equal amounts stay in the order of first appearance. That is true by construction but not proved.
- Transactions.List: requires page >= 1 and pageSize >= 1. The endpoint's behaviour on every 32-bit page and page size is modelled by `Paging.GetTransactions` and `Paging.GetTransactionsAsWritten`. Query values outside the 32-bit range, which the binder rejects, are excluded by their `requires`.
- Deleting a user is not an endpoint. It is modelled only as the cascade the schema configures (`AppDb.DeleteUser`).

## Findings

| source | as written | input that shows it | evidently intended | confidence | as-written member | corrected member |
|---|---|---|---|---|---|---|
| Backend/api/Controllers/TransactionsController.cs:42 | The offset `(page - 1) * pageSize` is computed in 32-bit `int` and wraps around | page = 65537, pageSize = 65536: the offset 2^32 wraps to 0, so the first page is shown again instead of an empty page | The offset is the true product, so pages past the end are empty | not executed | Paging.GetTransactionsAsWritten, Paging.WrappedOffsetRepeatsFirstPage | Paging.GetTransactions, Paging.PagesPastTheEndAreEmpty |
| Backend/api/Models/TransactionDto.cs:31-32 | `[Required]` on the non-nullable enum `Type` always passes, so any number is accepted | A create body with type 3 passes validation and is stored with a type that names no member | Only Income (1) and Expense (2) are accepted | not executed | TransactionDtos.ValidCreateAsWritten, TransactionDtos.UndefinedTypeAccepted | TransactionDtos.ValidCreate, TransactionDtos.ValidCreateDecodesType |

The enum `TransactionType` declares only Income = 1 and Expense = 2
(Transaction.cs:32-36), and the transaction form offers only those two
values (Frontend/src/components/TransactionForm.jsx:88-91). The body's
validation does not enforce this, as the second finding shows. The model
follows the corrected check everywhere else.

=== FILE: app_db.dfy ===
/** The relational store as the context configures it: users with a
    unique email, transactions with bounded text columns and a
    decimal(18,2) amount, and a cascading foreign key from each
    transaction to its owner. */
module AppDb {
  import opened Outcomes
  import opened Calendar
  import opened Seqs
  import opened TransactionModel

  const MaxNameLength: int := 100
  const MaxEmailLength: int := 100
  const MaxDescriptionLength: int := 200
  const MaxCategoryLength: int := 50

  /** decimal(18,2) holds 18 digits, two of them after the point, so an
      amount in cents fits when it has at most 18 digits. */
  const DecimalLimitCents: int := 1_000_000_000_000_000_000

  predicate FitsAmountColumn(cents: int)
  {
    -DecimalLimitCents < cents < DecimalLimitCents
  }

  datatype User = User(id: int, name: string, email: string, passwordHash: string, createdAt: DateTime)

  /** Both tables and the next value of each identity column. */
  datatype Db = Db(users: seq<User>, transactions: seq<Transaction>, nextUserId: int, nextTransactionId: int)

  /** A database with no rows; identity columns start at 1. */
  const Empty: Db := Db([], [], 1, 1)

  /** The state after a request together with its response. */
  datatype Step<+T> = Step(db: Db, response: Result<T>)

  predicate UserExists(users: seq<User>, id: int)
  {
    exists u :: u in users && u.id == id
  }

  predicate EmailTaken(users: seq<User>, email: string)
  {
    exists u :: u in users && u.email == email
  }

  function EmailOf(u: User): string { u.email }
  function UserIdOf(u: User): int { u.id }
  function TransactionIdOf(t: Transaction): int { t.id }

  /** The unique index on Email. */
  ghost predicate UniqueEmails(users: seq<User>)
  {
    DistinctBy(users, EmailOf)
  }

  ghost predicate UsersValid(db: Db)
  {
    && UniqueEmails(db.users)
    && DistinctBy(db.users, UserIdOf)
    && db.nextUserId >= 1
    && (forall u :: u in db.users ==> 1 <= u.id < db.nextUserId)
    && (forall u :: u in db.users ==> |u.name| <= MaxNameLength && |u.email| <= MaxEmailLength)
  }

  /** The column limits of one transaction row. */
  predicate RowFitsColumns(t: Transaction)
  {
    && FitsAmountColumn(t.amount)
    && |t.description| <= MaxDescriptionLength
    && |t.category| <= MaxCategoryLength
  }

  ghost predicate TransactionsValid(db: Db)
  {
    && DistinctBy(db.transactions, TransactionIdOf)
    && db.nextTransactionId >= 1
    && (forall t :: t in db.transactions ==> 1 <= t.id < db.nextTransactionId)
    && (forall t :: t in db.transactions ==> RowFitsColumns(t))
    && (forall t :: t in db.transactions ==> UserExists(db.users, t.userId))
  }

  /** Everything the schema enforces. */
  ghost predicate SchemaValid(db: Db)
  {
    UsersValid(db) && TransactionsValid(db)
  }

  lemma EmptyIsValid()
    ensures SchemaValid(Empty)
  {
  }

  /** The rows owned by user u, in store order. */
  function Owned(rows: seq<Transaction>, u: int): (r: seq<Transaction>)
    ensures forall t :: t in r <==> t in rows && t.userId == u
  {
    Filter(rows, (t: Transaction) => t.userId == u)
  }

  /** Each of the caller's rows is kept exactly as often as it is stored. */
  lemma OwnedCounts(rows: seq<Transaction>, u: int)
    ensures forall t :: multiset(Owned(rows, u))[t] == if t.userId == u then multiset(rows)[t] else 0
  {
    FilterCounts(rows, (t: Transaction) => t.userId == u);
  }

  lemma OwnedAppend(a: seq<Transaction>, b: seq<Transaction>, u: int)
    ensures Owned(a + b, u) == Owned(a, u) + Owned(b, u)
  {
    FilterAppend(a, b, (t: Transaction) => t.userId == u);
  }

  /** The rows whose owner is not user id. */
  function WithoutOwner(rows: seq<Transaction>, id: int): (r: seq<Transaction>)
    ensures forall t :: t in r <==> t in rows && t.userId != id
  {
    Filter(rows, (t: Transaction) => t.userId != id)
  }

  /** Deleting a user: the user row goes and, through the cascading
      foreign key, every transaction it owns goes with it. */
  function DeleteUser(db: Db, id: int): (r: Db)
    ensures forall u :: u in r.users <==> u in db.users && u.id != id
    ensures forall t :: t in r.transactions <==> t in db.transactions && t.userId != id
    ensures r.nextUserId == db.nextUserId && r.nextTransactionId == db.nextTransactionId
  {
    db.(users := Filter(db.users, (u: User) => u.id != id),
        transactions := WithoutOwner(db.transactions, id))
  }

  /** Every other user keeps exactly the transactions it had, in order. */
  lemma {:induction false} DeleteUserKeepsOthers(rows: seq<Transaction>, id: int, v: int)
    requires v != id
    ensures Owned(WithoutOwner(rows, id), v) == Owned(rows, v)
    decreases |rows|
  {
    if |rows| > 0 {
      DeleteUserKeepsOthers(rows[1..], id, v);
      var head := if rows[0].userId != id then [rows[0]] else [];
      assert WithoutOwner(rows, id) == head + WithoutOwner(rows[1..], id);
      OwnedAppend(head, WithoutOwner(rows[1..], id), v);
      assert rows == [rows[0]] + rows[1..];
      OwnedAppend([rows[0]], rows[1..], v);
    }
  }

  /** The cascade keeps the schema valid: no transaction is left
      pointing at the deleted user. */
  lemma DeleteUserPreservesSchema(db: Db, id: int)
    requires SchemaValid(db)
    ensures SchemaValid(DeleteUser(db, id))
    ensures forall v :: v != id ==> Owned(DeleteUser(db, id).transactions, v) == Owned(db.transactions, v)
  {
    var r := DeleteUser(db, id);
    forall v | v != id
      ensures Owned(r.transactions, v) == Owned(db.transactions, v)
    {
      DeleteUserKeepsOthers(db.transactions, id, v);
    }
    FilterDistinct(db.users, (u: User) => u.id != id, EmailOf);
    FilterDistinct(db.users, (u: User) => u.id != id, UserIdOf);
    FilterDistinct(db.transactions, (t: Transaction) => t.userId != id, TransactionIdOf);
    forall t | t in r.transactions
      ensures UserExists(r.users, t.userId)
    {
      var u :| u in db.users && u.id == t.userId;
      assert u in r.users;
    }
  }
}

=== FILE: auth.dfy ===
/** The register and login endpoints. Password hashing and token
    signing belong to the authentication service, which is not part of
    this model: both enter as parameters, and the one fact the endpoints
    rely on, that a password verifies against its own hash, is assumed
    only by the lemma that needs it, for the one password it uses. */
module Auth {
  import opened Outcomes
  import opened Calendar
  import opened Seqs
  import opened AppDb
  import opened AuthDtos
  import opened TransactionLaws

  const DuplicateEmailMessage: string := "User with this email already exists"
  const InvalidCredentialsMessage: string := "Invalid email or password"
  const RegisterFailedMessage: string := "An error occurred during registration"
  const LoginFailedMessage: string := "An error occurred during login"

  /** Tokens and the expiry reported with them last seven days. */
  const TokenLifetimeDays: nat := 7

  /** HashPassword and VerifyPassword of the authentication service. */
  datatype Hasher = Hasher(hash: string -> string, verify: (string, string) -> bool)

  /** FirstOrDefault(u => u.Email == email), by position. */
  function FirstByEmail(users: seq<User>, email: string): (r: Option<nat>)
    ensures r.Some? ==> r.value < |users| && users[r.value].email == email
    ensures r.Some? ==> forall j :: 0 <= j < r.value ==> users[j].email != email
    ensures r.None? <==> !EmailTaken(users, email)
    decreases |users|
  {
    if |users| == 0 then None
    else if users[0].email == email then Some(0)
    else
      match FirstByEmail(users[1..], email)
      case None =>
        assert forall u :: u in users ==> u == users[0] || u in users[1..];
        None
      case Some(i) => Some(i + 1)
  }

  /** The row a successful registration inserts. */
  function NewUser(db: Db, d: RegisterDto, h: Hasher, now: DateTime): User
  {
    User(db.nextUserId, d.name, d.email, h.hash(d.password), now)
  }

  /** POST api/auth/register. The body is checked first, then the email
      must be new; the user is then saved before the token and its
      expiry are made, so a failure there (AddDays past the last
      representable day) answers 500 with the user already stored. */
  function Register(db: Db, d: RegisterDto, h: Hasher, issue: User -> string, now: DateTime): (r: Step<AuthResponseDto>)
    ensures !ValidRegister(d) ==> r == Step(db, Err(ValidationFailed(RegisterErrors(d))))
    ensures ValidRegister(d) && EmailTaken(db.users, d.email) ==> r == Step(db, Err(BadRequest(DuplicateEmailMessage)))
    ensures ValidRegister(d) && !EmailTaken(db.users, d.email) ==>
      var user := User(db.nextUserId, d.name, d.email, h.hash(d.password), now);
      && r.db == db.(users := db.users + [user], nextUserId := db.nextUserId + 1)
      && (r.response.Ok? <==> AddDays(now, TokenLifetimeDays).Some?)
      && (r.response.Ok? ==>
            r.response.value == AuthResponseDto(issue(user), d.name, d.email, AddDays(now, TokenLifetimeDays).value))
      && (r.response.Err? ==> r.response.error == ServerError(RegisterFailedMessage))
  {
    if !ValidRegister(d) then
      Step(db, Err(ValidationFailed(RegisterErrors(d))))
    else if EmailTaken(db.users, d.email) then
      Step(db, Err(BadRequest(DuplicateEmailMessage)))
    else
      var user := NewUser(db, d, h, now);
      var saved := db.(users := db.users + [user], nextUserId := db.nextUserId + 1);
      match AddDays(now, TokenLifetimeDays)
      case None => Step(saved, Err(ServerError(RegisterFailedMessage)))
      case Some(expires) => Step(saved, Ok(AuthResponseDto(issue(user), user.name, user.email, expires)))
  }

  /** POST api/auth/login. An unknown email and a wrong password get the
      same answer. */
  function Login(db: Db, d: LoginDto, h: Hasher, issue: User -> string, now: DateTime): (r: Result<AuthResponseDto>)
    ensures !ValidLogin(d) ==> r == Err(ValidationFailed(LoginErrors(d)))
    ensures ValidLogin(d) && !EmailTaken(db.users, d.email) ==> r == Err(BadRequest(InvalidCredentialsMessage))
    ensures ValidLogin(d) && EmailTaken(db.users, d.email) ==>
      var user := db.users[FirstByEmail(db.users, d.email).value];
      && (!h.verify(d.password, user.passwordHash) ==> r == Err(BadRequest(InvalidCredentialsMessage)))
      && (h.verify(d.password, user.passwordHash) ==>
            r == match AddDays(now, TokenLifetimeDays)
                 case None => Err(ServerError(LoginFailedMessage))
                 case Some(expires) => Ok(AuthResponseDto(issue(user), user.name, user.email, expires)))
  {
    if !ValidLogin(d) then Err(ValidationFailed(LoginErrors(d)))
    else
      match FirstByEmail(db.users, d.email)
      case None => Err(BadRequest(InvalidCredentialsMessage))
      case Some(i) =>
        var user := db.users[i];
        if !h.verify(d.password, user.passwordHash) then Err(BadRequest(InvalidCredentialsMessage))
        else
          match AddDays(now, TokenLifetimeDays)
          case None => Err(ServerError(LoginFailedMessage))
          case Some(expires) => Ok(AuthResponseDto(issue(user), user.name, user.email, expires))
  }

  /** Registration keeps the store valid: in particular the unique index
      on Email never sees a duplicate. */
  lemma RegisterPreservesInvariant(db: Db, d: RegisterDto, h: Hasher, issue: User -> string, now: DateTime)
    requires Invariant(db)
    ensures Invariant(Register(db, d, h, issue, now).db)
    ensures UniqueEmails(Register(db, d, h, issue, now).db.users)
  {
    if ValidRegister(d) && !EmailTaken(db.users, d.email) {
      var user := NewUser(db, d, h, now);
      ValidRegisterFitsColumns(d);
      assert Register(db, d, h, issue, now).db == db.(users := db.users + [user], nextUserId := db.nextUserId + 1);
      SaveUserPreservesInvariant(db, user);
    }
  }

  /** Saving a user under the next id with a new email that fits the
      columns keeps the store valid. */
  lemma SaveUserPreservesInvariant(db: Db, user: User)
    requires Invariant(db)
    requires user.id == db.nextUserId && !EmailTaken(db.users, user.email)
    requires |user.name| <= MaxNameLength && |user.email| <= MaxEmailLength
    ensures Invariant(db.(users := db.users + [user], nextUserId := db.nextUserId + 1))
  {
    forall v | v in db.users
      ensures EmailOf(v) != EmailOf(user) && UserIdOf(v) != UserIdOf(user)
    {
    }
    DistinctAppend(db.users, user, EmailOf);
    DistinctAppend(db.users, user, UserIdOf);
    assert forall v :: v in db.users + [user] <==> v in db.users || v == user;
  }

  /** An email can be registered once: whatever the first registration
      answered, a second one with the same email is refused and changes
      nothing. */
  lemma RegisterTwiceRejected(db: Db, d: RegisterDto, d': RegisterDto, h: Hasher, issue: User -> string, now: DateTime, later: DateTime)
    requires ValidRegister(d) && ValidRegister(d') && d'.email == d.email
    ensures var db1 := Register(db, d, h, issue, now).db;
      Register(db1, d', h, issue, later) == Step(db1, Err(BadRequest(DuplicateEmailMessage)))
  {
    var db1 := Register(db, d, h, issue, now).db;
    if !EmailTaken(db.users, d.email) {
      assert NewUser(db, d, h, now) in db1.users;
    }
  }

  /** A user who has just registered can log in with the same email and
      password, and sees the same name and email, provided the password
      verifies against the hash made from it. The user is stored even
      when the registration itself answered 500. */
  lemma RegisterThenLogin(db: Db, d: RegisterDto, h: Hasher, issue: User -> string, now: DateTime, later: DateTime)
    requires h.verify(d.password, h.hash(d.password))
    requires ValidRegister(d) && !EmailTaken(db.users, d.email)
    ensures var r := Register(db, d, h, issue, now);
      var l := Login(r.db, LoginDto(d.email, d.password), h, issue, later);
      && r.db.users == db.users + [NewUser(db, d, h, now)]
      && (l.Ok? <==> AddDays(later, TokenLifetimeDays).Some?)
      && (l.Ok? ==> l.value.name == d.name && l.value.email == d.email
                    && l.value.token == issue(NewUser(db, d, h, now)))
  {
    var user := NewUser(db, d, h, now);
    FirstByEmailAppend(db.users, user);
    assert ValidLogin(LoginDto(d.email, d.password));
    assert h.verify(d.password, user.passwordHash);
  }

  /** A user whose email is new is the first with that email once appended. */
  lemma FirstByEmailAppend(users: seq<User>, v: User)
    requires !EmailTaken(users, v.email)
    ensures FirstByEmail(users + [v], v.email) == Some(|users|)
  {
    var r := users + [v];
    assert r[|users|] == v;
    forall j | 0 <= j < |users|
      ensures r[j].email != v.email
    {
      assert r[j] == users[j] && users[j] in users;
    }
  }

  /** An unknown email and a known one with the wrong password cannot be
      told apart by the answer. */
  lemma LoginFailuresLookAlike(db1: Db, db2: Db, d: LoginDto, h: Hasher, issue: User -> string, now: DateTime, v: User)
    requires ValidLogin(d)
    requires UniqueEmails(db2.users)
    requires !EmailTaken(db1.users, d.email)
    requires v in db2.users && v.email == d.email && !h.verify(d.password, v.passwordHash)
    ensures Login(db1, d, h, issue, now) == Login(db2, d, h, issue, now) == Err(BadRequest(InvalidCredentialsMessage))
  {
    OnlyUserWithEmail(db2.users, v);
  }

  /** With unique emails, the user FirstOrDefault finds is the one with
      that email. */
  lemma OnlyUserWithEmail(users: seq<User>, v: User)
    requires UniqueEmails(users) && v in users
    ensures FirstByEmail(users, v.email) != None && users[FirstByEmail(users, v.email).value] == v
  {
    var i := FirstByEmail(users, v.email).value;
    var k :| 0 <= k < |users| && users[k] == v;
    assert EmailOf(users[i]) == EmailOf(users[k]);
  }

  /** Under the unique index, a valid login succeeds exactly when some
      user has that email and the password verifies against its hash,
      and the expiry is representable. */
  lemma LoginSucceedsIff(db: Db, d: LoginDto, h: Hasher, issue: User -> string, now: DateTime)
    requires ValidLogin(d)
    requires UniqueEmails(db.users)
    ensures Login(db, d, h, issue, now).Ok? <==>
      (exists v :: v in db.users && v.email == d.email && h.verify(d.password, v.passwordHash))
      && AddDays(now, TokenLifetimeDays).Some?
  {
    if exists v :: v in db.users && v.email == d.email && h.verify(d.password, v.passwordHash) {
      var v :| v in db.users && v.email == d.email && h.verify(d.password, v.passwordHash);
      OnlyUserWithEmail(db.users, v);
    }
  }
}

=== FILE: calendar.dfy ===
/** The part of the .NET DateTime value the controllers rely on: a
    proleptic Gregorian date between 0001-01-01 and 9999-12-31 with a
    time of day counted in 100-nanosecond ticks, ordered by its tick
    count, and AddDays, which fails past the last representable day. */
module Calendar {
  import opened Outcomes

  const TicksPerDay: int := 864_000_000_000
  const MinYear: int := 1
  const MaxYear: int := 9999

  predicate IsLeapYear(y: int)
  {
    y % 4 == 0 && (y % 100 != 0 || y % 400 == 0)
  }

  function DaysInMonth(y: int, m: int): (n: int)
    requires 1 <= m <= 12
    ensures 28 <= n <= 31
    ensures m == 2 ==> (n == 29 <==> IsLeapYear(y))
  {
    if m == 2 then (if IsLeapYear(y) then 29 else 28)
    else if m == 4 || m == 6 || m == 9 || m == 11 then 30
    else 31
  }

  function DaysInYear(y: int): int
  {
    if IsLeapYear(y) then 366 else 365
  }

  datatype CalendarTime = CalendarTime(year: int, month: int, day: int, timeOfDay: int)
  {
    predicate Valid()
    {
      && MinYear <= year <= MaxYear
      && 1 <= month <= 12
      && 1 <= day <= DaysInMonth(year, month)
      && 0 <= timeOfDay < TicksPerDay
    }
  }

  /** A DateTime is always a valid calendar instant. */
  type DateTime = t: CalendarTime | t.Valid() witness CalendarTime(1, 1, 1, 0)

  /** Days in the years before year y, counted from 0001-01-01. */
  function DaysBeforeYear(y: int): (n: nat)
    decreases y
  {
    if y <= MinYear then 0 else DaysBeforeYear(y - 1) + DaysInYear(y - 1)
  }

  /** Days in the months of year y before month m. */
  function DaysBeforeMonth(y: int, m: int): (n: nat)
    requires 1 <= m <= 12
    decreases m
  {
    if m == 1 then 0 else DaysBeforeMonth(y, m - 1) + DaysInMonth(y, m - 1)
  }

  /** Days since 0001-01-01 of the date part. */
  function DayNumber(d: DateTime): nat
  {
    DaysBeforeYear(d.year) + DaysBeforeMonth(d.year, d.month) + d.day - 1
  }

  /** The tick count of d, the key DateTime values are compared by. */
  function Ticks(d: DateTime): int
  {
    DayNumber(d) * 864_000_000_000 + d.timeOfDay
  }

  /** A year's twelve months add up to the year's length. */
  lemma MonthsFillYear(y: int)
    ensures DaysBeforeMonth(y, 12) + DaysInMonth(y, 12) == DaysInYear(y)
  {
    assert DaysBeforeMonth(y, 3) == 31 + DaysInMonth(y, 2);
    assert DaysBeforeMonth(y, 12) == DaysBeforeMonth(y, 3) + 275;
  }

  /** The same time of day on the following calendar day, or None on
      the last representable day. */
  function NextDay(d: DateTime): (r: Option<DateTime>)
    ensures r.None? <==> d.year == MaxYear && d.month == 12 && d.day == 31
    ensures r.Some? ==> r.value.timeOfDay == d.timeOfDay
    ensures r.Some? ==> DayNumber(r.value) == DayNumber(d) + 1
  {
    if d.day < DaysInMonth(d.year, d.month) then
      Some(d.(day := d.day + 1))
    else if d.month < 12 then
      var e := CalendarTime(d.year, d.month + 1, 1, d.timeOfDay);
      assert DaysBeforeMonth(d.year, d.month + 1) == DaysBeforeMonth(d.year, d.month) + d.day;
      Some(e)
    else if d.year < MaxYear then
      MonthsFillYear(d.year);
      var e := CalendarTime(d.year + 1, 1, 1, d.timeOfDay);
      assert DaysBeforeYear(d.year + 1) == DaysBeforeYear(d.year) + DaysInYear(d.year);
      Some(e)
    else
      assert d.day == 31;
      None
  }

  /** Earlier years hold fewer days before them. */
  lemma {:induction false} DaysBeforeYearGrows(y: int, z: int)
    requires MinYear <= y <= z
    ensures DaysBeforeYear(y) + (if y < z then DaysInYear(y) else 0) <= DaysBeforeYear(z)
    decreases z - y
  {
    if y < z {
      DaysBeforeYearGrows(y + 1, z);
    }
  }

  /** A month that is not December ends before December begins. */
  lemma {:induction false} MonthEndsBeforeDecember(y: int, m: int)
    requires 1 <= m < 12
    ensures DaysBeforeMonth(y, m) + DaysInMonth(y, m) <= DaysBeforeMonth(y, 12)
    decreases 12 - m
  {
    if m < 11 {
      MonthEndsBeforeDecember(y, m + 1);
      assert DaysBeforeMonth(y, m + 1) == DaysBeforeMonth(y, m) + DaysInMonth(y, m);
    }
  }

  /** Days into its year of the date part of d, counted from 0. */
  lemma DayOfYearBound(d: DateTime)
    ensures DaysBeforeMonth(d.year, d.month) + d.day - 1 < DaysInYear(d.year)
    ensures DaysBeforeMonth(d.year, d.month) + d.day == DaysInYear(d.year) <==> d.month == 12 && d.day == 31
  {
    MonthsFillYear(d.year);
    if d.month < 12 {
      MonthEndsBeforeDecember(d.year, d.month);
    }
  }

  /** The Gregorian count of days before year y: 365 a year plus one
      for every leap year before it. */
  lemma {:induction false} DaysBeforeYearCount(y: int)
    requires y >= MinYear
    ensures DaysBeforeYear(y) == 365 * (y - 1) + (y - 1) / 4 - (y - 1) / 100 + (y - 1) / 400
    decreases y
  {
    if y > MinYear {
      DaysBeforeYearCount(y - 1);
      LeapYearsStep(y - 2);
    }
  }

  /** Passing year k + 1 adds one to the leap-year count exactly when
      k + 1 is a leap year. */
  lemma LeapYearsStep(k: int)
    requires k >= 0
    ensures DaysInYear(k + 1) - 365
      == ((k + 1) / 4 - k / 4) - ((k + 1) / 100 - k / 100) + ((k + 1) / 400 - k / 400)
  {
    assert (k + 1) / 4 - k / 4 == (if (k + 1) % 4 == 0 then 1 else 0);
    assert (k + 1) / 100 - k / 100 == (if (k + 1) % 100 == 0 then 1 else 0);
    assert (k + 1) / 400 - k / 400 == (if (k + 1) % 400 == 0 then 1 else 0);
  }

  /** The day number of 9999-12-31, the last day DateTime can hold:
      the days before year 9999 plus the 364 days before its last. */
  const LastDayNumber: nat := 3_651_694 + 364

  lemma DaysBeforeLastYear()
    ensures DaysBeforeYear(MaxYear) == 3_651_694
  {
    DaysBeforeYearCount(MaxYear);
  }

  /** No day comes after 9999-12-31, and only that day has its number. */
  lemma DayNumberAtMost(d: DateTime)
    ensures DayNumber(d) <= LastDayNumber
    ensures DayNumber(d) == LastDayNumber <==> d.year == MaxYear && d.month == 12 && d.day == 31
  {
    DaysBeforeLastYear();
    DayOfYearBound(d);
    DaysBeforeYearGrows(d.year, MaxYear);
    assert DaysInYear(MaxYear) == 365;
  }

  /** DateTime.AddDays for a whole number of days: the instant exactly
      n days later, or None exactly when that lies past 9999-12-31
      (where the framework throws). */
  function AddDays(d: DateTime, n: nat): (r: Option<DateTime>)
    ensures r.None? <==> DayNumber(d) + n > LastDayNumber
    ensures r.Some? ==> Ticks(r.value) == Ticks(d) + n * 864_000_000_000
    ensures r.Some? ==> r.value.timeOfDay == d.timeOfDay
    decreases n
  {
    DayNumberAtMost(d);
    if n == 0 then Some(d)
    else
      match NextDay(d)
      case None => None
      case Some(e) => AddDays(e, n - 1)
  }
}

=== FILE: categories.dfy ===
/** GET api/transactions/categories: the built-in categories together
    with every category the caller has used, without duplicates, in
    ascending order. */
module Categories {
  import opened Text
  import opened Seqs
  import opened TransactionModel
  import opened AppDb

  /** The built-in categories, in the order the endpoint declares them. */
  const DefaultCategories: seq<string> := [
    "Food & Dining", "Transportation", "Shopping", "Entertainment",
    "Bills & Utilities", "Education", "Travel",
    "Coffee", "Restaurants", "Utilities",
    "Salary", "Business", "Investments", "Other"]

  /** Each string sorts strictly before every later one: ascending and
      without duplicates. */
  ghost predicate StrictlyAscending(s: seq<string>)
  {
    forall i, j :: 0 <= i < j < |s| ==> Less(s[i], s[j])
  }

  /** Inserts x at its place in an ascending list unless it is already there. */
  function InsertSorted(x: string, s: seq<string>): (r: seq<string>)
    requires StrictlyAscending(s)
    ensures StrictlyAscending(r)
    ensures forall y :: y in r <==> y in s || y == x
    decreases |s|
  {
    if |s| == 0 then [x]
    else if x == s[0] then s
    else
      LessTotal(x, s[0]);
      HeadIsLeast(s);
      assert forall y :: y in s <==> y == s[0] || y in s[1..] by {
        assert s == [s[0]] + s[1..];
      }
      if Less(x, s[0]) then
        forall y | y in s[1..]
          ensures Less(x, y)
        {
          LessTransitive(x, s[0], y);
        }
        ConsAscending(x, s);
        [x] + s
      else
        var rest := InsertSorted(x, s[1..]);
        ConsAscending(s[0], rest);
        [s[0]] + rest
  }

  /** The head of an ascending list sorts before everything after it. */
  lemma HeadIsLeast(s: seq<string>)
    requires StrictlyAscending(s) && |s| > 0
    ensures forall y :: y in s[1..] ==> Less(s[0], y)
  {
    forall y | y in s[1..]
      ensures Less(s[0], y)
    {
      var k :| 0 <= k < |s[1..]| && s[1..][k] == y;
      assert s[k + 1] == y;
    }
  }

  /** A string below everything in an ascending list can go in front. */
  lemma ConsAscending(x: string, s: seq<string>)
    requires StrictlyAscending(s)
    requires forall y :: y in s ==> Less(x, y)
    ensures StrictlyAscending([x] + s)
  {
    forall i, j | 0 <= i < j < |[x] + s|
      ensures Less(([x] + s)[i], ([x] + s)[j])
    {
      if i == 0 {
        assert ([x] + s)[j] == s[j - 1] && s[j - 1] in s;
      } else {
        assert ([x] + s)[i] == s[i - 1] && ([x] + s)[j] == s[j - 1];
      }
    }
  }

  /** Union followed by OrderBy: the distinct strings of s in ascending order. */
  function SortDistinct(s: seq<string>): (r: seq<string>)
    ensures StrictlyAscending(r)
    ensures forall y :: y in r <==> y in s
    decreases |s|
  {
    if |s| == 0 then []
    else
      assert forall y :: y in s <==> y == s[0] || y in s[1..] by {
        assert s == [s[0]] + s[1..];
      }
      InsertSorted(s[0], SortDistinct(s[1..]))
  }

  /** The categories of the caller's rows, one per row. */
  function UsedCategories(rows: seq<Transaction>, u: int): (r: seq<string>)
    ensures forall c :: c in r <==> exists t :: t in rows && t.userId == u && t.category == c
    decreases |rows|
  {
    if |rows| == 0 then []
    else
      assert forall t :: t in rows <==> t == rows[0] || t in rows[1..] by {
        assert rows == [rows[0]] + rows[1..];
      }
      (if rows[0].userId == u then [rows[0].category] else []) + UsedCategories(rows[1..], u)
  }

  /** GET api/transactions/categories for the caller. */
  function GetCategories(db: Db, u: int): (r: seq<string>)
    ensures StrictlyAscending(r)
    ensures forall c :: c in r <==>
      c in DefaultCategories || exists t :: t in db.transactions && t.userId == u && t.category == c
  {
    SortDistinct(DefaultCategories + UsedCategories(db.transactions, u))
  }

  /** An ascending duplicate-free list is determined by its elements:
      the endpoint's answer is the one sorted listing of its set. */
  lemma {:induction false} AscendingIsUnique(a: seq<string>, b: seq<string>)
    requires StrictlyAscending(a) && StrictlyAscending(b)
    requires forall y :: y in a <==> y in b
    ensures a == b
    decreases |a|
  {
    SameMembersSameEmptiness(a, b);
    if |a| > 0 {
      if a[0] != b[0] {
        LessTotal(a[0], b[0]);
        if Less(a[0], b[0]) {
          BelowHeadIsAbsent(a[0], b);
        } else {
          BelowHeadIsAbsent(b[0], a);
        }
      }
      forall y
        ensures y in a[1..] <==> y in b[1..]
      {
        TailMembers(a, y);
        TailMembers(b, y);
      }
      AscendingIsUnique(a[1..], b[1..]);
      assert a == [a[0]] + a[1..] && b == [b[0]] + b[1..];
    }
  }

  lemma SameMembersSameEmptiness(a: seq<string>, b: seq<string>)
    requires forall y :: y in a <==> y in b
    ensures |a| == 0 <==> |b| == 0
  {
    if |a| > 0 {
      assert a[0] in a;
    }
    if |b| > 0 {
      assert b[0] in b;
    }
  }

  /** A string below the head of an ascending list is not in it. */
  lemma BelowHeadIsAbsent(x: string, s: seq<string>)
    requires StrictlyAscending(s) && |s| > 0 && Less(x, s[0])
    ensures x !in s
  {
    if x in s {
      var k :| 0 <= k < |s| && s[k] == x;
      if k > 0 {
        LessTransitive(x, s[0], s[k]);
      }
      LessIrreflexive(x);
    }
  }

  /** In an ascending list, the tail holds exactly the elements other
      than the head. */
  lemma TailMembers(s: seq<string>, y: string)
    requires StrictlyAscending(s) && |s| > 0
    ensures y in s[1..] <==> y in s && y != s[0]
  {
    assert s == [s[0]] + s[1..];
    if y in s[1..] {
      var k :| 0 <= k < |s[1..]| && s[1..][k] == y;
      assert Less(s[0], s[k + 1]);
      LessIrreflexive(s[0]);
    }
  }

  /** The built-in categories are always offered, whoever asks. */
  lemma DefaultsAlwaysListed(db: Db, u: int)
    ensures forall c :: c in DefaultCategories ==> c in GetCategories(db, u)
    ensures |GetCategories(db, u)| >= |DefaultCategories|
  {
    var r := GetCategories(db, u);
    DistinctDefaults();
    ListedAtLeast(DefaultCategories, r);
  }

  /** The identity key: a list distinct by it has no repeated string. */
  function Itself(c: string): string { c }

  lemma DistinctDefaults()
    ensures DistinctBy(DefaultCategories, Itself)
  {
  }

  /** A list holding every element of a list without repeats is at
      least as long. */
  lemma {:induction false} ListedAtLeast(a: seq<string>, b: seq<string>)
    requires DistinctBy(a, Itself)
    requires forall y :: y in a ==> y in b
    ensures |b| >= |a|
    decreases |a|
  {
    if |a| > 0 {
      assert a[0] in a;
      var k :| 0 <= k < |b| && b[k] == a[0];
      var b' := b[..k] + b[k + 1..];
      forall y | y in a[1..]
        ensures y in b'
      {
        var i :| 0 <= i < |a[1..]| && a[1..][i] == y;
        assert a[i + 1] == y && y != a[0] && y in a;
        var m :| 0 <= m < |b| && b[m] == y;
        assert m != k;
        if m < k {
          assert b'[m] == y;
        } else {
          assert b'[m - 1] == y;
        }
      }
      ListedAtLeast(a[1..], b');
    }
  }

  /** The list reads nothing but the caller's rows. */
  lemma CategoriesSeeOnlyOwnRows(db1: Db, db2: Db, u: int)
    requires Owned(db1.transactions, u) == Owned(db2.transactions, u)
    ensures GetCategories(db1, u) == GetCategories(db2, u)
  {
    var r1, r2 := GetCategories(db1, u), GetCategories(db2, u);
    forall c
      ensures c in r1 <==> c in r2
    {
      if exists t :: t in db1.transactions && t.userId == u && t.category == c {
        var t :| t in db1.transactions && t.userId == u && t.category == c;
        assert t in Owned(db2.transactions, u);
      }
      if exists t :: t in db2.transactions && t.userId == u && t.category == c {
        var t :| t in db2.transactions && t.userId == u && t.category == c;
        assert t in Owned(db1.transactions, u);
      }
    }
    AscendingIsUnique(r1, r2);
  }
}

=== FILE: login_dto.dfy ===
/** The account shapes: the login and registration bodies with the
    checks their attributes impose, and the response both return. */
module AuthDtos {
  import opened Outcomes
  import opened Calendar
  import opened Text
  import opened AppDb

  /** [MinLength(6)] on both password fields. */
  const MinPasswordLength: int := 6

  datatype LoginDto = LoginDto(email: string, password: string)

  datatype RegisterDto = RegisterDto(name: string, email: string, password: string, confirmPassword: string)

  datatype AuthResponseDto = AuthResponseDto(token: string, name: string, email: string, expiresAt: DateTime)

  /** Position of the first c in s, or -1. */
  function IndexOf(s: string, c: char): (r: int)
    ensures -1 <= r < |s|
    ensures r == -1 <==> c !in s
    ensures r >= 0 ==> s[r] == c && forall j :: 0 <= j < r ==> s[j] != c
    decreases |s|
  {
    if |s| == 0 then -1
    else if s[0] == c then 0
    else
      var r := IndexOf(s[1..], c);
      assert c in s[1..] ==> c in s;
      if r == -1 then -1 else r + 1
  }

  /** Position of the last c in s, or -1. */
  function LastIndexOf(s: string, c: char): (r: int)
    ensures -1 <= r < |s|
    ensures r == -1 <==> c !in s
    ensures r >= 0 ==> s[r] == c && forall j :: r < j < |s| ==> s[j] != c
    decreases |s|
  {
    if |s| == 0 then -1
    else if s[|s| - 1] == c then |s| - 1
    else
      var r := LastIndexOf(s[..|s| - 1], c);
      assert c in s[..|s| - 1] ==> c in s;
      assert c in s ==> c in s[..|s| - 1];
      r
  }

  /** [EmailAddress]: the framework's check that the first '@' is also
      the last one and is neither the first nor the last character. */
  predicate IsEmailAddress(s: string)
  {
    var i := IndexOf(s, '@');
    i > 0 && i != |s| - 1 && i == LastIndexOf(s, '@')
  }

  /** The check accepts exactly the strings with one '@' that has a
      character on each side. */
  lemma EmailAddressMeansOneInnerAt(s: string)
    ensures IsEmailAddress(s) <==>
      exists i :: 0 < i < |s| - 1 && s[i] == '@' && forall j :: 0 <= j < |s| && s[j] == '@' ==> j == i
  {
    if IsEmailAddress(s) {
      var i := IndexOf(s, '@');
      assert forall j :: 0 <= j < |s| && s[j] == '@' ==> j == i;
    }
    if exists i :: 0 < i < |s| - 1 && s[i] == '@' && forall j :: 0 <= j < |s| && s[j] == '@' ==> j == i {
      var i :| 0 < i < |s| - 1 && s[i] == '@' && forall j :: 0 <= j < |s| && s[j] == '@' ==> j == i;
      assert '@' in s;
    }
  }

  /** [Required] and [EmailAddress]. */
  predicate EmailOk(email: string)
  {
    !IsBlank(email) && IsEmailAddress(email)
  }

  /** [Required] and [MinLength(6)]. */
  predicate PasswordOk(password: string)
  {
    !IsBlank(password) && Utf16Length(password) >= MinPasswordLength
  }

  /** MinLength counts UTF-16 code units: three characters beyond the
      Basic Multilingual Plane are six units, enough for a password. */
  lemma ThreeEmojiAreLongEnough()
    ensures PasswordOk("\U{1F600}\U{1F600}\U{1F600}")
    ensures |"\U{1F600}\U{1F600}\U{1F600}"| < MinPasswordLength
  {
    var p := "\U{1F600}\U{1F600}\U{1F600}";
    assert p[1..][1..][1..] == [];
    assert Utf16Length(p) == 6;
  }

  predicate ValidLogin(d: LoginDto)
  {
    EmailOk(d.email) && PasswordOk(d.password)
  }

  function LoginErrors(d: LoginDto): (errs: seq<string>)
    ensures errs == [] <==> ValidLogin(d)
    ensures "Email" in errs <==> !EmailOk(d.email)
    ensures "Password" in errs <==> !PasswordOk(d.password)
  {
    Check(EmailOk(d.email), "Email") + Check(PasswordOk(d.password), "Password")
  }

  /** [Required] and [MaxLength(100)]. */
  predicate NameOk(name: string)
  {
    !IsBlank(name) && Utf16Length(name) <= MaxNameLength
  }

  /** [Required], [EmailAddress] and [MaxLength(100)]. */
  predicate RegisterEmailOk(email: string)
  {
    EmailOk(email) && Utf16Length(email) <= MaxEmailLength
  }

  /** [Required] and [Compare("Password")]. */
  predicate ConfirmOk(d: RegisterDto)
  {
    !IsBlank(d.confirmPassword) && d.confirmPassword == d.password
  }

  predicate ValidRegister(d: RegisterDto)
  {
    NameOk(d.name) && RegisterEmailOk(d.email) && PasswordOk(d.password) && ConfirmOk(d)
  }

  function RegisterErrors(d: RegisterDto): (errs: seq<string>)
    ensures errs == [] <==> ValidRegister(d)
    ensures "Name" in errs <==> !NameOk(d.name)
    ensures "Email" in errs <==> !RegisterEmailOk(d.email)
    ensures "Password" in errs <==> !PasswordOk(d.password)
    ensures "ConfirmPassword" in errs <==> !ConfirmOk(d)
  {
    Check(NameOk(d.name), "Name") + Check(RegisterEmailOk(d.email), "Email")
    + Check(PasswordOk(d.password), "Password") + Check(ConfirmOk(d), "ConfirmPassword")
  }

  /** A valid registration fits the user columns, and its two password
      fields are the same string. */
  lemma ValidRegisterFitsColumns(d: RegisterDto)
    requires ValidRegister(d)
    ensures 0 < |d.name| <= MaxNameLength && 0 < |d.email| <= MaxEmailLength
    ensures d.confirmPassword == d.password && Utf16Length(d.password) >= MinPasswordLength
  {
    Utf16LengthBounds(d.name);
    Utf16LengthBounds(d.email);
  }
}

=== FILE: outcomes.dfy ===
/** Response shapes shared by every endpoint: an optional value, the
    four kinds of error the API can answer with, and a result that is
    either a value or one of those errors. */
module Outcomes {

  datatype Option<+T> = None | Some(value: T)

  /** The error kinds the controllers produce. ValidationFailed is the
      automatic 400 the framework returns before an action runs when an
      input model fails its attributes; it carries the failing field names. */
  datatype ApiError =
    | ValidationFailed(fields: seq<string>)
    | BadRequest(message: string)
    | NotFound(message: string)
    | ServerError(message: string)
  {
    /** The HTTP status code the error is surfaced as. */
    function Status(): (code: int)
      ensures code == 404 <==> NotFound?
      ensures code == 500 <==> ServerError?
      ensures code == 400 <==> ValidationFailed? || BadRequest?
    {
      match this
      case ValidationFailed(_) => 400
      case BadRequest(_) => 400
      case NotFound(_) => 404
      case ServerError(_) => 500
    }
  }

  /** The failing-field list contributed by one field's check. */
  function Check(ok: bool, field: string): (errs: seq<string>)
    ensures errs == [] <==> ok
    ensures ok || errs == [field]
  {
    if ok then [] else [field]
  }

  datatype Result<+T> = Ok(value: T) | Err(error: ApiError)

  /** The empty body of a 204 response. */
  datatype NoContent = NoContent
}

=== FILE: paging.dfy ===
/** GET api/transactions with the query parameters as the endpoint
    receives them: 32-bit integers that nothing checks. The offset
    (page - 1) * pageSize is computed in 32-bit arithmetic, which wraps
    around; the database refuses a negative OFFSET or LIMIT, which the
    endpoint answers with 500. */
module Paging {
  import opened Outcomes
  import opened TransactionModel
  import opened TransactionDtos
  import opened AppDb
  import opened Transactions

  const ListFailedMessage: string := "An error occurred while retrieving transactions"

  const Int32Modulus: int := 0x1_0000_0000
  const Int32Min: int := -0x8000_0000

  predicate IsInt32(x: int)
  {
    Int32Min <= x < Int32Min + Int32Modulus
  }

  /** The 32-bit two's complement value congruent to x (unchecked
      arithmetic on int). */
  function Wrap32(x: int): (r: int)
    ensures IsInt32(r)
    ensures (x - r) % Int32Modulus == 0
    ensures IsInt32(x) ==> r == x
  {
    (x - Int32Min) % Int32Modulus + Int32Min
  }

  /** The response for a given offset: Skip(offset).Take(pageSize) of the
      caller's matching rows, newest first. */
  function PageAt(db: Db, u: int, q: ListQuery, offset: int): (r: ListResponse)
    requires offset >= 0 && q.pageSize >= 0
    ensures r.totalCount == |Matching(db.transactions, u, q.category, q.transactionType)|
    ensures |r.items| <= q.pageSize
    ensures r.page == q.page && r.pageSize == q.pageSize
  {
    var matching := Matching(db.transactions, u, q.category, q.transactionType);
    ListResponse(Project(Slice(NewestFirst(matching), offset, q.pageSize)), |matching|, q.page, q.pageSize)
  }

  /** The endpoint as written: the offset wraps around in 32 bits. */
  function GetTransactionsAsWritten(db: Db, u: int, q: ListQuery): (r: Result<ListResponse>)
    requires IsInt32(q.page) && IsInt32(q.pageSize)
    ensures var off := Wrap32(Wrap32(q.page - 1) * q.pageSize);
      && (r.Err? <==> off < 0 || q.pageSize < 0)
      && (r.Err? ==> r.error == ServerError(ListFailedMessage))
      && (r.Ok? ==> r.value == PageAt(db, u, q, off))
  {
    var off := Wrap32(Wrap32(q.page - 1) * q.pageSize);
    if off < 0 || q.pageSize < 0 then Err(ServerError(ListFailedMessage))
    else Ok(PageAt(db, u, q, off))
  }

  /** The endpoint with the offset computed without overflow. Page 1 and
      up with a positive page size always answer, and then answer List;
      a negative offset or page size is refused as before. */
  function GetTransactions(db: Db, u: int, q: ListQuery): (r: Result<ListResponse>)
    requires IsInt32(q.page) && IsInt32(q.pageSize)
    ensures r.Err? <==> q.pageSize < 0 || (q.page < 1 && q.pageSize > 0)
    ensures r.Err? ==> r.error == ServerError(ListFailedMessage)
    ensures q.page >= 1 && q.pageSize >= 1 ==> r == Ok(List(db, u, q))
    ensures r.Ok? && q.pageSize == 0 ==> r.value.items == []
  {
    if q.pageSize < 0 || (q.page < 1 && q.pageSize > 0) then Err(ServerError(ListFailedMessage))
    else if q.pageSize == 0 then Ok(PageAt(db, u, q, 0))
    else Ok(List(db, u, q))
  }

  /** The corrected endpoint refuses exactly the queries whose true
      offset (page - 1) * pageSize or page size is negative, and
      otherwise answers the page at that offset. */
  lemma GetTransactionsUsesTrueOffset(db: Db, u: int, q: ListQuery)
    requires IsInt32(q.page) && IsInt32(q.pageSize)
    ensures var off := (q.page - 1) * q.pageSize;
      && (GetTransactions(db, u, q).Err? <==> off < 0 || q.pageSize < 0)
      && (GetTransactions(db, u, q).Ok? ==> GetTransactions(db, u, q).value == PageAt(db, u, q, off))
  {
    var off := (q.page - 1) * q.pageSize;
    ProductSign(q.page - 1, q.pageSize);
    if q.pageSize == 0 {
      assert off == 0;
    } else if q.pageSize > 0 && q.page >= 1 {
      OffsetIsProduct(q.page, q.pageSize);
      assert PageAt(db, u, q, off) == List(db, u, q);
    }
  }

  /** The endpoint as written and the corrected one answer alike
      whenever the offset (page - 1) * pageSize fits in 32 bits: the
      wrap-around is the only difference between them. */
  lemma AsWrittenAgreesWithoutOverflow(db: Db, u: int, q: ListQuery)
    requires IsInt32(q.page) && IsInt32(q.pageSize)
    requires IsInt32(q.page - 1) && IsInt32((q.page - 1) * q.pageSize)
    ensures GetTransactionsAsWritten(db, u, q) == GetTransactions(db, u, q)
  {
    var off := (q.page - 1) * q.pageSize;
    assert Wrap32(Wrap32(q.page - 1) * q.pageSize) == off;
    GetTransactionsUsesTrueOffset(db, u, q);
    var written, corrected := GetTransactionsAsWritten(db, u, q), GetTransactions(db, u, q);
    if off >= 0 && q.pageSize >= 0 {
      assert written == Ok(PageAt(db, u, q, off));
      assert corrected == Ok(PageAt(db, u, q, off));
    } else {
      assert written == Err(ServerError(ListFailedMessage));
      assert corrected == Err(ServerError(ListFailedMessage));
    }
  }

  /** Signs of a product of a count and a non-negative size. */
  lemma ProductSign(a: int, b: int)
    ensures b > 0 ==> (a * b < 0 <==> a < 0)
    ensures b == 0 ==> a * b == 0
  {
    if b > 0 {
      if a < 0 {
        assert a * b <= -b;
      } else {
        assert a * b >= 0;
      }
    }
  }

  /** The intended behaviour: a page that starts at or past the last
      matching row is empty. */
  lemma PagesPastTheEndAreEmpty(db: Db, u: int, q: ListQuery)
    requires IsInt32(q.page) && IsInt32(q.pageSize)
    requires q.page >= 1 && q.pageSize >= 1
    requires (q.page - 1) * q.pageSize >= |Matching(db.transactions, u, q.category, q.transactionType)|
    ensures GetTransactions(db, u, q) == Ok(List(db, u, q))
    ensures List(db, u, q).items == []
  {
    OffsetIsProduct(q.page, q.pageSize);
    ListItemsAreSlice(db, u, q);
  }

  /** As written, page 65537 of size 65536 starts at offset 2^32, which
      wraps to 0: the endpoint answers with the first page instead of an
      empty one. */
  lemma WrappedOffsetRepeatsFirstPage(row: Transaction)
    ensures var db := Db([], [row], 1, row.id + 1);
      var q := ListQuery(65537, 65536, None, None);
      && (q.page - 1) * q.pageSize >= |Matching(db.transactions, row.userId, q.category, q.transactionType)|
      && GetTransactionsAsWritten(db, row.userId, q) == Ok(ListResponse([ToDto(row)], 1, 65537, 65536))
      && GetTransactions(db, row.userId, q) == Ok(ListResponse([], 1, 65537, 65536))
  {
    var db := Db([], [row], 1, row.id + 1);
    var q := ListQuery(65537, 65536, None, None);
    var m := Matching(db.transactions, row.userId, q.category, q.transactionType);
    assert Owned([row], row.userId) == [row];
    assert m == [row];
    assert NewestFirst(m) == [row];
    assert Wrap32(65536 * 65536) == 0;
    assert Slice([row], 0, 65536) == [row];
    assert Project([row]) == [ToDto(row)];
    assert PageAt(db, row.userId, q, 0) == ListResponse([ToDto(row)], 1, 65537, 65536);
    PagesPastTheEndAreEmpty(db, row.userId, q);
  }
}

=== FILE: seqs.dfy ===
/** Sequence operations the controllers' LINQ queries are built from:
    Where (Filter), Sum (SumBy) and OrderByDescending on an integer key
    (SortDesc, an insertion sort), with the facts the queries rely on. */
module Seqs {

  /** Where: the elements of s that satisfy p, in their original order. */
  function Filter<T(!new)>(s: seq<T>, p: T -> bool): (r: seq<T>)
    ensures |r| <= |s|
    ensures forall x :: x in r <==> x in s && p(x)
    decreases |s|
  {
    if |s| == 0 then []
    else (if p(s[0]) then [s[0]] else []) + Filter(s[1..], p)
  }

  /** Where keeps every qualifying element as often as s holds it, and
      no other element. */
  lemma {:induction false} FilterCounts<T(!new)>(s: seq<T>, p: T -> bool)
    ensures forall x :: multiset(Filter(s, p))[x] == if p(x) then multiset(s)[x] else 0
    decreases |s|
  {
    if |s| > 0 {
      FilterCounts(s[1..], p);
      assert s == [s[0]] + s[1..];
    }
  }

  /** Where keeps everything when every element qualifies. */
  lemma {:induction false} FilterAll<T(!new)>(s: seq<T>, p: T -> bool)
    requires forall x :: x in s ==> p(x)
    ensures Filter(s, p) == s
    decreases |s|
  {
    if |s| > 0 {
      assert forall x :: x in s[1..] ==> x in s;
      FilterAll(s[1..], p);
    }
  }

  lemma {:induction false} FilterAppend<T(!new)>(a: seq<T>, b: seq<T>, p: T -> bool)
    ensures Filter(a + b, p) == Filter(a, p) + Filter(b, p)
    decreases |a|
  {
    if |a| > 0 {
      assert (a + b)[1..] == a[1..] + b;
      FilterAppend(a[1..], b, p);
    } else {
      assert a + b == b;
    }
  }

  /** Replacing an element that p rejects by another one p rejects does
      not change what Filter keeps. */
  lemma {:induction false} FilterReplace<T(!new)>(s: seq<T>, i: int, x: T, p: T -> bool)
    requires 0 <= i < |s| && !p(s[i]) && !p(x)
    ensures Filter(s[i := x], p) == Filter(s, p)
  {
    var t := s[i + 1..];
    assert s == s[..i] + ([s[i]] + t);
    assert s[i := x] == s[..i] + ([x] + t);
    assert ([s[i]] + t)[1..] == t && ([x] + t)[1..] == t;
    FilterAppend(s[..i], [s[i]] + t, p);
    FilterAppend(s[..i], [x] + t, p);
  }

  /** Removing an element that p rejects does not change what Filter keeps. */
  lemma {:induction false} FilterRemove<T(!new)>(s: seq<T>, i: int, p: T -> bool)
    requires 0 <= i < |s| && !p(s[i])
    ensures Filter(s[..i] + s[i + 1..], p) == Filter(s, p)
  {
    var a, t := s[..i], s[i + 1..];
    assert Filter(a + [s[i]], p) == Filter(a, p) by {
      FilterAppend(a, [s[i]], p);
      assert [s[i]][1..] == [];
      assert Filter(a, p) + [] == Filter(a, p);
    }
    calc {
      Filter(s, p);
      { assert s == (a + [s[i]]) + t; }
      Filter((a + [s[i]]) + t, p);
      { FilterAppend(a + [s[i]], t, p); }
      Filter(a + [s[i]], p) + Filter(t, p);
      Filter(a, p) + Filter(t, p);
      { FilterAppend(a, t, p); }
      Filter(a + t, p);
    }
  }

  /** Sum over a projection, accumulated from the last element. */
  function SumBy<T>(s: seq<T>, f: T -> int): int
    decreases |s|
  {
    if |s| == 0 then 0 else SumBy(s[..|s| - 1], f) + f(s[|s| - 1])
  }

  lemma {:induction false} SumByCons<T>(x: T, s: seq<T>, f: T -> int)
    ensures SumBy([x] + s, f) == f(x) + SumBy(s, f)
    decreases |s|
  {
    if |s| > 0 {
      assert ([x] + s)[..|s|] == [x] + s[..|s| - 1];
      SumByCons(x, s[..|s| - 1], f);
    }
  }

  /** Changing one element changes the sum by the difference of the two. */
  lemma {:induction false} SumByUpdate<T>(s: seq<T>, i: int, y: T, f: T -> int)
    requires 0 <= i < |s|
    ensures SumBy(s[i := y], f) == SumBy(s, f) - f(s[i]) + f(y)
    decreases |s|
  {
    var n := |s| - 1;
    if i < n {
      assert s[i := y][..n] == s[..n][i := y];
      SumByUpdate(s[..n], i, y, f);
    } else {
      assert s[i := y][..n] == s[..n];
    }
  }

  /** Keys never increase from left to right. */
  ghost predicate NonIncreasing<T>(s: seq<T>, key: T -> int)
  {
    forall i, j :: 0 <= i < j < |s| ==> key(s[i]) >= key(s[j])
  }

  /** No two elements share a name. */
  ghost predicate DistinctBy<T, K>(s: seq<T>, name: T -> K)
  {
    forall i, j :: 0 <= i < j < |s| ==> name(s[i]) != name(s[j])
  }

  /** Appending an element whose name is new keeps names distinct. */
  lemma DistinctAppend<T, K>(s: seq<T>, x: T, name: T -> K)
    requires DistinctBy(s, name)
    requires forall y :: y in s ==> name(y) != name(x)
    ensures DistinctBy(s + [x], name)
  {
    forall i, j | 0 <= i < j < |s + [x]|
      ensures name((s + [x])[i]) != name((s + [x])[j])
    {
      if j == |s| {
        assert (s + [x])[i] in s;
      }
    }
  }

  /** Replacing an element by one of the same name keeps names distinct. */
  lemma DistinctUpdate<T, K>(s: seq<T>, i: int, x: T, name: T -> K)
    requires DistinctBy(s, name) && 0 <= i < |s| && name(x) == name(s[i])
    ensures DistinctBy(s[i := x], name)
  {
  }

  /** Removing an element keeps names distinct. */
  lemma DistinctRemove<T, K>(s: seq<T>, i: int, name: T -> K)
    requires DistinctBy(s, name) && 0 <= i < |s|
    ensures DistinctBy(s[..i] + s[i + 1..], name)
  {
    var r := s[..i] + s[i + 1..];
    forall a, b | 0 <= a < b < |r|
      ensures name(r[a]) != name(r[b])
    {
      var a' := if a < i then a else a + 1;
      var b' := if b < i then b else b + 1;
      assert r[a] == s[a'] && r[b] == s[b'];
    }
  }

  /** Removing an element leaves only elements of the original and,
      when names are distinct, none with the removed element's name. */
  lemma RemoveMembers<T, K>(s: seq<T>, i: int, name: T -> K)
    requires 0 <= i < |s|
    ensures forall x :: x in s[..i] + s[i + 1..] ==> x in s
    ensures DistinctBy(s, name) ==> forall x :: x in s[..i] + s[i + 1..] ==> name(x) != name(s[i])
  {
    var r := s[..i] + s[i + 1..];
    forall x | x in r
      ensures x in s && (DistinctBy(s, name) ==> name(x) != name(s[i]))
    {
      var k :| 0 <= k < |r| && r[k] == x;
      var k' := if k < i then k else k + 1;
      assert s[k'] == x && k' != i;
    }
  }

  /** Filtering keeps names distinct. */
  lemma {:induction false} FilterDistinct<T(!new), K>(s: seq<T>, p: T -> bool, name: T -> K)
    requires DistinctBy(s, name)
    ensures DistinctBy(Filter(s, p), name)
    decreases |s|
  {
    if |s| > 0 {
      FilterDistinct(s[1..], p, name);
      var rest := Filter(s[1..], p);
      forall y | y in rest
        ensures name(y) != name(s[0])
      {
        var k :| 0 <= k < |s[1..]| && s[1..][k] == y;
        assert s[k + 1] == y;
      }
      if p(s[0]) {
        forall i, j | 0 <= i < j < |[s[0]] + rest|
          ensures name(([s[0]] + rest)[i]) != name(([s[0]] + rest)[j])
        {
          if i == 0 {
            assert ([s[0]] + rest)[j] == rest[j - 1];
            assert rest[j - 1] in rest;
          } else {
            assert ([s[0]] + rest)[i] == rest[i - 1];
            assert ([s[0]] + rest)[j] == rest[j - 1];
          }
        }
      } else {
        assert Filter(s, p) == rest;
      }
    }
  }

  /** Inserts x into a sequence sorted by non-increasing key, before the
      first element whose key is not greater than x's. */
  function InsertDesc<T>(x: T, s: seq<T>, key: T -> int): (r: seq<T>)
    requires NonIncreasing(s, key)
    ensures NonIncreasing(r, key)
    ensures multiset(r) == multiset(s) + multiset{x}
    ensures |r| == |s| + 1
    decreases |s|
  {
    if |s| == 0 || key(x) >= key(s[0]) then
      [x] + s
    else
      var rest := InsertDesc(x, s[1..], key);
      assert s == [s[0]] + s[1..];
      MultisetMembers(rest, s[1..], x);
      HeadIsMax(s, key);
      ConsNonIncreasing(s[0], rest, key);
      [s[0]] + rest
  }

  lemma HeadIsMax<T>(s: seq<T>, key: T -> int)
    requires |s| > 0 && NonIncreasing(s, key)
    ensures forall y :: y in s[1..] ==> key(y) <= key(s[0])
  {
    forall y | y in s[1..]
      ensures key(y) <= key(s[0])
    {
      var k :| 0 <= k < |s[1..]| && s[1..][k] == y;
      assert s[k + 1] == y;
    }
  }

  lemma ConsNonIncreasing<T>(a: T, rest: seq<T>, key: T -> int)
    requires NonIncreasing(rest, key)
    requires forall y :: y in rest ==> key(y) <= key(a)
    ensures NonIncreasing([a] + rest, key)
  {
    forall i, j | 0 <= i < j < |[a] + rest|
      ensures key(([a] + rest)[i]) >= key(([a] + rest)[j])
    {
      if i == 0 {
        assert ([a] + rest)[j] == rest[j - 1];
        assert rest[j - 1] in rest;
      }
    }
  }

  lemma MultisetMembers<T>(a: seq<T>, b: seq<T>, x: T)
    requires multiset(a) == multiset(b) + multiset{x}
    ensures forall y :: y in a ==> y == x || y in b
  {
    forall y | y in a
      ensures y == x || y in b
    {
      assert y in multiset(a);
    }
  }

  /** OrderByDescending(key): a permutation of s with non-increasing keys. */
  function SortDesc<T>(s: seq<T>, key: T -> int): (r: seq<T>)
    ensures NonIncreasing(r, key)
    ensures multiset(r) == multiset(s)
    ensures |r| == |s|
    decreases |s|
  {
    if |s| == 0 then []
    else
      assert s == [s[0]] + s[1..];
      InsertDesc(s[0], SortDesc(s[1..], key), key)
  }

  /** A sequence already in order is left as it is: the sort moves an
      element only past elements with a strictly greater key. */
  lemma {:induction false} SortDescKeepsSorted<T>(s: seq<T>, key: T -> int)
    requires NonIncreasing(s, key)
    ensures SortDesc(s, key) == s
    decreases |s|
  {
    if |s| > 0 {
      forall i, j | 0 <= i < j < |s[1..]|
        ensures key(s[1..][i]) >= key(s[1..][j])
      {
        assert s[1..][i] == s[i + 1] && s[1..][j] == s[j + 1];
      }
      SortDescKeepsSorted(s[1..], key);
      assert s == [s[0]] + s[1..];
    }
  }

  lemma {:induction false} InsertDescSum<T>(x: T, s: seq<T>, key: T -> int, f: T -> int)
    requires NonIncreasing(s, key)
    ensures SumBy(InsertDesc(x, s, key), f) == f(x) + SumBy(s, f)
    decreases |s|
  {
    if |s| == 0 || key(x) >= key(s[0]) {
      SumByCons(x, s, f);
    } else {
      InsertDescSum(x, s[1..], key, f);
      SumByCons(s[0], InsertDesc(x, s[1..], key), f);
      SumByCons(s[0], s[1..], f);
      assert s == [s[0]] + s[1..];
    }
  }

  /** Sorting does not change a sum. */
  lemma {:induction false} SortDescSum<T>(s: seq<T>, key: T -> int, f: T -> int)
    ensures SumBy(SortDesc(s, key), f) == SumBy(s, f)
    decreases |s|
  {
    if |s| > 0 {
      SortDescSum(s[1..], key, f);
      InsertDescSum(s[0], SortDesc(s[1..], key), key, f);
      SumByCons(s[0], s[1..], f);
      assert s == [s[0]] + s[1..];
    }
  }

  lemma {:induction false} InsertDescDistinct<T, K>(x: T, s: seq<T>, key: T -> int, name: T -> K)
    requires NonIncreasing(s, key) && DistinctBy(s, name)
    requires forall y :: y in s ==> name(y) != name(x)
    ensures DistinctBy(InsertDesc(x, s, key), name)
    decreases |s|
  {
    if |s| == 0 || key(x) >= key(s[0]) {
    } else {
      var rest := InsertDesc(x, s[1..], key);
      InsertDescDistinct(x, s[1..], key, name);
      MultisetMembers(rest, s[1..], x);
      forall j | 0 <= j < |rest|
        ensures name(s[0]) != name(rest[j])
      {
        if rest[j] != x {
          assert rest[j] in s[1..];
          var k :| 0 <= k < |s[1..]| && s[1..][k] == rest[j];
          assert s[k + 1] == rest[j];
        }
      }
    }
  }

  /** Sorting keeps names distinct. */
  lemma {:induction false} SortDescDistinct<T, K>(s: seq<T>, key: T -> int, name: T -> K)
    requires DistinctBy(s, name)
    ensures DistinctBy(SortDesc(s, key), name)
    decreases |s|
  {
    if |s| > 0 {
      SortDescDistinct(s[1..], key, name);
      var sorted := SortDesc(s[1..], key);
      forall y | y in sorted
        ensures name(y) != name(s[0])
      {
        assert y in multiset(s[1..]);
        var k :| 0 <= k < |s[1..]| && s[1..][k] == y;
        assert s[k + 1] == y;
      }
      InsertDescDistinct(s[0], sorted, key, name);
    }
  }
}

=== FILE: summary.dfy ===
/** GET api/transactions/summary: the caller's totals for the current
    calendar month and the expenses of that month grouped by category,
    largest first. */
module Summary {
  import opened Outcomes
  import opened Calendar
  import opened Seqs
  import opened TransactionModel
  import opened AppDb

  /** One entry of the category breakdown. */
  datatype CategoryTotal = CategoryTotal(category: string, amount: int)

  datatype SummaryResponse = SummaryResponse(
    totalIncome: int,
    totalExpenses: int,
    balance: int,
    transactionCount: int,
    categoryBreakdown: seq<CategoryTotal>,
    month: int,
    year: int)

  function RowAmount(t: Transaction): int { t.amount }
  function EntryAmount(e: CategoryTotal): int { e.amount }
  function EntryCategory(e: CategoryTotal): string { e.category }

  /** The row's date lies in the month and year of now. */
  predicate InMonth(t: Transaction, now: DateTime)
  {
    t.date.year == now.year && t.date.month == now.month
  }

  /** The caller's rows dated in the current month, in store order. */
  function PeriodRows(rows: seq<Transaction>, u: int, now: DateTime): (r: seq<Transaction>)
    ensures forall t :: t in r <==> t in rows && t.userId == u && InMonth(t, now)
  {
    Filter(Owned(rows, u), (t: Transaction) => InMonth(t, now))
  }

  /** Each of the caller's rows of the month appears exactly as often as
      it is stored, so the totals and the count see every row once. */
  lemma PeriodCounts(rows: seq<Transaction>, u: int, now: DateTime)
    ensures forall t :: multiset(PeriodRows(rows, u, now))[t] == if t.userId == u && InMonth(t, now) then multiset(rows)[t] else 0
  {
    OwnedCounts(rows, u);
    FilterCounts(Owned(rows, u), (t: Transaction) => InMonth(t, now));
  }

  /** The sum of the amounts of the rows of one type. */
  function TotalOf(rows: seq<Transaction>, ty: TransactionType): int
    decreases |rows|
  {
    if |rows| == 0 then 0
    else TotalOf(rows[..|rows| - 1], ty) + (if rows[|rows| - 1].transactionType == ty then rows[|rows| - 1].amount else 0)
  }

  /** The number of rows of one type. */
  function CountOf(rows: seq<Transaction>, ty: TransactionType): nat
    decreases |rows|
  {
    if |rows| == 0 then 0
    else CountOf(rows[..|rows| - 1], ty) + (if rows[|rows| - 1].transactionType == ty then 1 else 0)
  }

  /** The sum of the amounts of the expense rows in category c. */
  function ExpenseTotalIn(rows: seq<Transaction>, c: string): int
    decreases |rows|
  {
    if |rows| == 0 then 0
    else
      var t := rows[|rows| - 1];
      ExpenseTotalIn(rows[..|rows| - 1], c) + (if t.transactionType == Expense && t.category == c then t.amount else 0)
  }

  predicate HasExpenseIn(rows: seq<Transaction>, c: string)
  {
    exists t :: t in rows && t.transactionType == Expense && t.category == c
  }

  predicate Lists(g: seq<CategoryTotal>, c: string)
  {
    exists e :: e in g && e.category == c
  }

  /** The position of category c in the breakdown, if it is there. */
  function FindCategory(g: seq<CategoryTotal>, c: string): (r: Option<nat>)
    ensures r.Some? ==> r.value < |g| && g[r.value].category == c
    ensures r.None? <==> !Lists(g, c)
    decreases |g|
  {
    if |g| == 0 then None
    else if g[0].category == c then Some(0)
    else
      match FindCategory(g[1..], c)
      case None =>
        assert forall e :: e in g ==> e == g[0] || e in g[1..];
        None
      case Some(i) => Some(i + 1)
  }

  /** Adds one expense to its category's group, opening a new group at
      the end for a category seen for the first time. */
  function AddExpense(g: seq<CategoryTotal>, t: Transaction): seq<CategoryTotal>
  {
    match FindCategory(g, t.category)
    case None => g + [CategoryTotal(t.category, t.amount)]
    case Some(i) => g[i := g[i].(amount := g[i].amount + t.amount)]
  }

  /** With distinct categories, AddExpense adds t as AddsExpense describes. */
  lemma AddExpenseAdds(g: seq<CategoryTotal>, t: Transaction)
    requires DistinctBy(g, EntryCategory)
    ensures AddsExpense(g, t, AddExpense(g, t))
  {
    var f := FindCategory(g, t.category);
    if f.None? {
      assert AddExpense(g, t) == g + [CategoryTotal(t.category, t.amount)];
      OpenGroup(g, t);
    } else {
      var i := f.value;
      assert AddExpense(g, t) == g[i := g[i].(amount := g[i].amount + t.amount)];
      GrowGroup(g, i, t);
    }
  }

  /** r is g with expense t added: categories stay distinct and gain
      t's; each existing group keeps its place and category and gains
      t's amount if the category is t's; a new group, if any, comes last
      and holds t alone; the grand total grows by t's amount. */
  ghost predicate AddsExpense(g: seq<CategoryTotal>, t: Transaction, r: seq<CategoryTotal>)
  {
    && DistinctBy(r, EntryCategory)
    && (forall c :: Lists(r, c) <==> Lists(g, c) || c == t.category)
    && (|r| == |g| || |r| == |g| + 1)
    && (forall i :: 0 <= i < |g| ==> r[i].category == g[i].category)
    && (forall i :: 0 <= i < |g| ==>
          r[i].amount == g[i].amount + (if g[i].category == t.category then t.amount else 0))
    && (|r| == |g| + 1 ==> r[|g|] == CategoryTotal(t.category, t.amount) && !Lists(g, t.category))
    && SumBy(r, EntryAmount) == SumBy(g, EntryAmount) + t.amount
  }

  /** An expense in a category not yet listed opens a group at the end. */
  lemma OpenGroup(g: seq<CategoryTotal>, t: Transaction)
    requires DistinctBy(g, EntryCategory) && !Lists(g, t.category)
    ensures AddsExpense(g, t, g + [CategoryTotal(t.category, t.amount)])
  {
    var e := CategoryTotal(t.category, t.amount);
    var r := g + [e];
    assert r[..|g|] == g;
    forall j | 0 <= j < |g|
      ensures r[j] == g[j] && g[j].category != t.category
    {
      assert g[j] in g;
    }
    assert forall x :: x in r <==> x in g || x == e;
    DistinctAppend(g, e, EntryCategory);
  }

  /** An expense in the category of group i adds to that group only. */
  lemma GrowGroup(g: seq<CategoryTotal>, i: int, t: Transaction)
    requires DistinctBy(g, EntryCategory) && 0 <= i < |g| && g[i].category == t.category
    ensures AddsExpense(g, t, g[i := g[i].(amount := g[i].amount + t.amount)])
  {
    var r := g[i := g[i].(amount := g[i].amount + t.amount)];
    DistinctUpdate(g, i, r[i], EntryCategory);
    SumByUpdate(g, i, r[i], EntryAmount);
    forall c | Lists(r, c)
      ensures Lists(g, c)
    {
      var e :| e in r && e.category == c;
      var k :| 0 <= k < |r| && r[k] == e;
      assert g[k] in g;
    }
    forall c | Lists(g, c)
      ensures Lists(r, c)
    {
      var e :| e in g && e.category == c;
      var k :| 0 <= k < |g| && g[k] == e;
      assert r[k] in r;
    }
    assert g[i] in g;
    forall j | 0 <= j < |g| && j != i
      ensures g[j].category != t.category
    {
      if j < i {
        assert EntryCategory(g[j]) != EntryCategory(g[i]);
      } else {
        assert EntryCategory(g[i]) != EntryCategory(g[j]);
      }
    }
  }

  /** A category without expense rows totals zero. */
  lemma {:induction false} NoExpenseTotalsZero(rows: seq<Transaction>, c: string)
    requires !HasExpenseIn(rows, c)
    ensures ExpenseTotalIn(rows, c) == 0
    decreases |rows|
  {
    if |rows| > 0 {
      var p := rows[..|rows| - 1];
      assert forall x :: x in p ==> x in rows;
      NoExpenseTotalsZero(p, c);
    }
  }

  /** GroupBy(Category) over the expense rows with each group's sum, in
      the order the categories first appear. */
  function GroupExpenses(rows: seq<Transaction>): seq<CategoryTotal>
    decreases |rows|
  {
    if |rows| == 0 then []
    else
      var p, t := rows[..|rows| - 1], rows[|rows| - 1];
      if t.transactionType != Expense then GroupExpenses(p)
      else AddExpense(GroupExpenses(p), t)
  }

  /** GroupExpenses groups the expenses of its rows. */
  lemma {:induction false} GroupExpensesGroups(rows: seq<Transaction>)
    ensures Groups(rows, GroupExpenses(rows))
    decreases |rows|
  {
    if |rows| > 0 {
      var p, t := rows[..|rows| - 1], rows[|rows| - 1];
      GroupExpensesGroups(p);
      var g := GroupExpenses(p);
      assert p + [t] == rows;
      if t.transactionType != Expense {
        GroupSkip(p, t, g);
      } else {
        AddExpenseAdds(g, t);
        GroupAdd(p, t, g, AddExpense(g, t));
      }
    }
  }

  /** g groups the expenses of rows: one entry per category that has an
      expense row, holding the sum of that category's expenses, the
      entries adding up to the expense total. */
  ghost predicate Groups(rows: seq<Transaction>, g: seq<CategoryTotal>)
  {
    && DistinctBy(g, EntryCategory)
    && (forall i :: 0 <= i < |g| ==> g[i].amount == ExpenseTotalIn(rows, g[i].category))
    && (forall c :: Lists(g, c) <==> HasExpenseIn(rows, c))
    && SumBy(g, EntryAmount) == TotalOf(rows, Expense)
  }

  /** A row that is not an expense leaves the groups as they are. */
  lemma GroupSkip(p: seq<Transaction>, t: Transaction, g: seq<CategoryTotal>)
    requires Groups(p, g) && t.transactionType != Expense
    ensures Groups(p + [t], g)
  {
    var rows := p + [t];
    assert rows[..|rows| - 1] == p;
    forall c
      ensures HasExpenseIn(rows, c) <==> HasExpenseIn(p, c)
    {
      assert forall x :: x in rows <==> x in p || x == t;
    }
  }

  /** An expense row goes into its category's group. */
  lemma GroupAdd(p: seq<Transaction>, t: Transaction, g: seq<CategoryTotal>, r: seq<CategoryTotal>)
    requires Groups(p, g) && t.transactionType == Expense && AddsExpense(g, t, r)
    ensures Groups(p + [t], r)
  {
    var rows := p + [t];
    assert rows[..|rows| - 1] == p;
    forall c
      ensures HasExpenseIn(rows, c) <==> HasExpenseIn(p, c) || c == t.category
    {
      assert forall x :: x in rows <==> x in p || x == t;
    }
    if |r| == |g| + 1 {
      NoExpenseTotalsZero(p, t.category);
    }
  }

  /** The breakdown: the groups ordered by amount, largest first. */
  function Breakdown(rows: seq<Transaction>): (b: seq<CategoryTotal>)
    ensures NonIncreasing(b, EntryAmount)
    ensures DistinctBy(b, EntryCategory)
    ensures forall e :: e in b ==> e.amount == ExpenseTotalIn(rows, e.category)
    ensures forall c :: Lists(b, c) <==> HasExpenseIn(rows, c)
    ensures SumBy(b, EntryAmount) == TotalOf(rows, Expense)
  {
    var g := GroupExpenses(rows);
    GroupExpensesGroups(rows);
    var b := SortDesc(g, EntryAmount);
    SortDescDistinct(g, EntryAmount, EntryCategory);
    SortDescSum(g, EntryAmount, EntryAmount);
    SameEntries(b, g);
    b
  }

  lemma SameEntries(b: seq<CategoryTotal>, g: seq<CategoryTotal>)
    requires multiset(b) == multiset(g)
    ensures forall e :: e in b <==> e in g
  {
    forall e
      ensures e in b <==> e in g
    {
      assert e in b <==> e in multiset(b);
      assert e in g <==> e in multiset(g);
    }
  }

  /** GET api/transactions/summary for the caller at time now (server
      local time). */
  function GetSummary(db: Db, u: int, now: DateTime): (r: SummaryResponse)
    ensures var period := PeriodRows(db.transactions, u, now);
      && r.totalIncome == TotalOf(period, Income)
      && r.totalExpenses == TotalOf(period, Expense)
      && r.balance == r.totalIncome - r.totalExpenses
      && r.transactionCount == |period|
      && r.month == now.month && r.year == now.year
      && NonIncreasing(r.categoryBreakdown, EntryAmount)
      && DistinctBy(r.categoryBreakdown, EntryCategory)
      && (forall e :: e in r.categoryBreakdown ==> e.amount == ExpenseTotalIn(period, e.category))
      && (forall c :: Lists(r.categoryBreakdown, c) <==> HasExpenseIn(period, c))
      && SumBy(r.categoryBreakdown, EntryAmount) == r.totalExpenses
  {
    var period := PeriodRows(db.transactions, u, now);
    var income := TotalOf(period, Income);
    var expenses := TotalOf(period, Expense);
    SummaryResponse(income, expenses, income - expenses, |period|, Breakdown(period), now.month, now.year)
  }

  /** Every row is income or expense, so the two totals add up to the
      sum of all amounts and the two counts to the number of rows. */
  lemma {:induction false} TotalsSplit(rows: seq<Transaction>)
    ensures TotalOf(rows, Income) + TotalOf(rows, Expense) == SumBy(rows, RowAmount)
    ensures CountOf(rows, Income) + CountOf(rows, Expense) == |rows|
    decreases |rows|
  {
    if |rows| > 0 {
      TotalsSplit(rows[..|rows| - 1]);
    }
  }

  /** The summary counts every row of the month exactly once: as income
      or as expense. */
  lemma SummaryCountsEveryRow(db: Db, u: int, now: DateTime)
    ensures var r := GetSummary(db, u, now);
      var period := PeriodRows(db.transactions, u, now);
      && r.transactionCount == CountOf(period, Income) + CountOf(period, Expense)
      && r.totalIncome + r.totalExpenses == SumBy(period, RowAmount)
  {
    TotalsSplit(PeriodRows(db.transactions, u, now));
  }

  /** The summary reads nothing but the caller's rows. */
  lemma SummarySeesOnlyOwnRows(db1: Db, db2: Db, u: int, now: DateTime)
    requires Owned(db1.transactions, u) == Owned(db2.transactions, u)
    ensures GetSummary(db1, u, now) == GetSummary(db2, u, now)
  {
  }

  /** Income of 1000 and expenses of 200 and 50 on Food and 100 on
      Travel, all dated in the current month. */
  const ExampleNow: DateTime := CalendarTime(2024, 3, 20, 0)
  const ExampleDay: DateTime := CalendarTime(2024, 3, 5, 0)
  const ExampleRows: seq<Transaction> := [
    Transaction(1, 1000, "Pay", ExampleDay, "Salary", Income, ExampleNow, 7),
    Transaction(2, 200, "Groceries", ExampleDay, "Food", Expense, ExampleNow, 7),
    Transaction(3, 50, "Snacks", ExampleDay, "Food", Expense, ExampleNow, 7),
    Transaction(4, 100, "Train", ExampleDay, "Travel", Expense, ExampleNow, 7)]

  lemma ExampleSummary()
    ensures GetSummary(Db([], ExampleRows, 1, 5), 7, ExampleNow)
      == SummaryResponse(1000, 350, 650, 4, [CategoryTotal("Food", 250), CategoryTotal("Travel", 100)], 3, 2024)
  {
    ExamplePeriod();
    ExampleBreakdown();
    ExampleTotals();
  }

  lemma ExampleTotals()
    ensures TotalOf(ExampleRows, Income) == 1000 && TotalOf(ExampleRows, Expense) == 350
  {
    var rows := ExampleRows;
    assert rows[..3][..2][..1] == rows[..1] && rows[..3][..2] == rows[..2] && rows[..|rows| - 1] == rows[..3];
    assert rows[..1][..0] == [];
    assert TotalOf(rows[..1], Income) == 1000 && TotalOf(rows[..1], Expense) == 0;
    assert TotalOf(rows[..2], Income) == 1000 && TotalOf(rows[..2], Expense) == 200;
    assert TotalOf(rows[..3], Income) == 1000 && TotalOf(rows[..3], Expense) == 250;
  }

  lemma ExamplePeriod()
    ensures PeriodRows(ExampleRows, 7, ExampleNow) == ExampleRows
  {
    FilterAll(ExampleRows, (t: Transaction) => t.userId == 7);
    FilterAll(ExampleRows, (t: Transaction) => InMonth(t, ExampleNow));
  }

  lemma ExampleBreakdown()
    ensures Breakdown(ExampleRows) == [CategoryTotal("Food", 250), CategoryTotal("Travel", 100)]
  {
    ExampleGroups();
    ExampleSorted();
  }

  lemma ExampleGroups()
    ensures GroupExpenses(ExampleRows) == [CategoryTotal("Food", 250), CategoryTotal("Travel", 100)]
  {
    var rows := ExampleRows;
    ExampleFoodGroup();
    assert rows[..|rows| - 1] == rows[..3];
    var t := rows[3];
    assert t.transactionType == Expense && t.category == "Travel" && t.amount == 100;
    assert FindCategory([CategoryTotal("Food", 250)], "Travel") == None;
    assert AddExpense([CategoryTotal("Food", 250)], t) == [CategoryTotal("Food", 250), CategoryTotal("Travel", 100)];
  }

  lemma ExampleFoodGroup()
    ensures GroupExpenses(ExampleRows[..3]) == [CategoryTotal("Food", 250)]
  {
    var rows := ExampleRows;
    ExampleFirstFood();
    assert rows[..3][..2] == rows[..2];
    var t := rows[..3][2];
    assert t.transactionType == Expense && t.category == "Food" && t.amount == 50;
    assert FindCategory([CategoryTotal("Food", 200)], "Food") == Some(0);
    assert AddExpense([CategoryTotal("Food", 200)], t) == [CategoryTotal("Food", 250)];
  }

  lemma ExampleFirstFood()
    ensures GroupExpenses(ExampleRows[..2]) == [CategoryTotal("Food", 200)]
  {
    var rows := ExampleRows;
    assert rows[..2][..1] == rows[..1] && rows[..1][..0] == [];
    assert rows[..1][0].transactionType == Income;
    assert GroupExpenses(rows[..1]) == [];
    var t := rows[..2][1];
    assert t.transactionType == Expense && t.category == "Food" && t.amount == 200;
    assert FindCategory([], t.category) == None;
    assert AddExpense([], t) == [CategoryTotal("Food", 200)];
  }

  lemma ExampleSorted()
    ensures SortDesc([CategoryTotal("Food", 250), CategoryTotal("Travel", 100)], EntryAmount)
      == [CategoryTotal("Food", 250), CategoryTotal("Travel", 100)]
  {
    var food, travel := CategoryTotal("Food", 250), CategoryTotal("Travel", 100);
    assert [food, travel][1..] == [travel] && [travel][1..] == [];
    assert SortDesc([travel], EntryAmount) == [travel];
  }
}

=== FILE: text.dfy ===
/** String predicates the input attributes and the category filter use:
    blankness, UTF-16 length, ASCII lower-casing, substring search and
    the ordinal (character-code) order strings are sorted by. */
module Text {

  /** White space as the blank-string check sees it, restricted to the
      Latin-1 range: tab, line feed, vertical tab, form feed, carriage
      return, space, next line and no-break space. */
  predicate IsWhiteSpace(c: char)
  {
    (9 <= c as int <= 13) || c as int == 32 || c as int == 0x85 || c as int == 0xA0
  }

  /** Empty or made of white space only; such a string fails [Required]. */
  predicate IsBlank(s: string)
  {
    forall i :: 0 <= i < |s| ==> IsWhiteSpace(s[i])
  }

  function LowerChar(c: char): (r: char)
    ensures 'A' <= c <= 'Z' ==> r as int == c as int + 32
    ensures !('A' <= c <= 'Z') ==> r == c
  {
    if 'A' <= c <= 'Z' then (c as int + 32) as char else c
  }

  function Lower(s: string): (r: string)
    ensures |r| == |s|
    ensures forall i :: 0 <= i < |s| ==> r[i] == LowerChar(s[i])
  {
    seq(|s|, i requires 0 <= i < |s| => LowerChar(s[i]))
  }

  /** needle occurs in hay starting at index k. */
  ghost predicate OccursAt(hay: string, needle: string, k: int)
  {
    0 <= k && k + |needle| <= |hay| && hay[k..k + |needle|] == needle
  }

  ghost predicate IsSubstring(needle: string, hay: string)
  {
    exists k :: OccursAt(hay, needle, k)
  }

  /** Shifting the search window one character right loses nothing
      when the needle does not start the haystack. */
  lemma SearchShift(hay: string, needle: string)
    requires |hay| > 0 && !(needle <= hay)
    ensures IsSubstring(needle, hay) <==> IsSubstring(needle, hay[1..])
  {
    if IsSubstring(needle, hay[1..]) {
      var k :| OccursAt(hay[1..], needle, k);
      assert OccursAt(hay, needle, k + 1);
    }
    if IsSubstring(needle, hay) {
      var k :| OccursAt(hay, needle, k);
      assert OccursAt(hay[1..], needle, k - 1);
    }
  }

  /** String.Contains: a left-to-right search for needle in hay. */
  function Contains(hay: string, needle: string): (b: bool)
    ensures b <==> IsSubstring(needle, hay)
    decreases |hay|
  {
    if needle <= hay then
      assert OccursAt(hay, needle, 0);
      true
    else if |hay| == 0 then
      false
    else
      SearchShift(hay, needle);
      Contains(hay[1..], needle)
  }

  /** Ordinal comparison: a sorts strictly before b. */
  predicate Less(a: string, b: string)
    decreases |a|
  {
    if |a| == 0 then |b| > 0
    else if |b| == 0 then false
    else if a[0] != b[0] then a[0] < b[0]
    else Less(a[1..], b[1..])
  }

  lemma {:induction false} LessIrreflexive(a: string)
    ensures !Less(a, a)
    decreases |a|
  {
    if |a| > 0 {
      LessIrreflexive(a[1..]);
    }
  }

  lemma {:induction false} LessTransitive(a: string, b: string, c: string)
    requires Less(a, b) && Less(b, c)
    ensures Less(a, c)
    decreases |a|
  {
    if |a| > 0 && |b| > 0 && |c| > 0 && a[0] == b[0] && b[0] == c[0] {
      LessTransitive(a[1..], b[1..], c[1..]);
    }
  }

  /** Any two different strings are ordered one way or the other. */
  lemma {:induction false} LessTotal(a: string, b: string)
    requires a != b
    ensures Less(a, b) || Less(b, a)
    decreases |a|
  {
    if |a| > 0 && |b| > 0 && a[0] == b[0] {
      assert a == [a[0]] + a[1..] && b == [b[0]] + b[1..];
      LessTotal(a[1..], b[1..]);
    }
  }

  /** The number of UTF-16 code units of s, the String.Length that
      [MinLength] and [MaxLength] compare: a character beyond the Basic
      Multilingual Plane is stored as a surrogate pair and counts twice. */
  function Utf16Length(s: string): nat
  {
    if |s| == 0 then 0
    else (if s[0] as int > 0xFFFF then 2 else 1) + Utf16Length(s[1..])
  }

  /** Every character takes one or two code units, and exactly one
      each when none lies beyond the Basic Multilingual Plane. */
  lemma {:induction false} Utf16LengthBounds(s: string)
    ensures |s| <= Utf16Length(s) <= 2 * |s|
    ensures Utf16Length(s) == |s| <==> forall i :: 0 <= i < |s| ==> s[i] as int <= 0xFFFF
    decreases |s|
  {
    if |s| > 0 {
      Utf16LengthBounds(s[1..]);
      assert forall i :: 1 <= i < |s| ==> s[i] == s[1..][i - 1];
    }
  }
}

=== FILE: transaction_dto.dfy ===
/** The transaction shapes exchanged with clients: the output
    projection TransactionDto and the create and update inputs with the
    checks their attributes impose before an action runs. */
module TransactionDtos {
  import opened Outcomes
  import opened Calendar
  import opened Text
  import opened TransactionModel
  import opened AppDb

  /** [Range(0.01, double.MaxValue)] on Amount, in cents. */
  const MinAmountCents: int := 1

  /** What a client sees of a row: everything except the owner. */
  datatype TransactionDto = TransactionDto(
    id: int,
    amount: int,
    description: string,
    date: DateTime,
    category: string,
    transactionType: TransactionType,
    createdAt: DateTime)

  function ToDto(t: Transaction): TransactionDto
  {
    TransactionDto(t.id, t.amount, t.description, t.date, t.category, t.transactionType, t.createdAt)
  }

  /** The projection drops the owner and nothing else: two rows with
      the same owner project alike exactly when they are equal, and the
      owner never shows in the projection. */
  lemma ToDtoForgetsOnlyOwner(t1: Transaction, t2: Transaction)
    ensures ToDto(t1) == ToDto(t2) <==> t1.(userId := t2.userId) == t2
    ensures ToDto(t1) == ToDto(t1.(userId := t2.userId))
  {
  }

  /** Request bodies. Type arrives as the enum's number; a number that
      names no member still deserialises. */
  datatype CreateTransactionDto = CreateTransactionDto(
    amount: int,
    description: string,
    date: DateTime,
    category: string,
    typeCode: int)

  datatype UpdateTransactionDto = UpdateTransactionDto(
    amount: int,
    description: string,
    date: DateTime,
    category: string,
    typeCode: int)

  predicate AmountOk(amount: int)
  {
    amount >= MinAmountCents
  }

  /** [Required] and [MaxLength(200)]. */
  predicate DescriptionOk(description: string)
  {
    !IsBlank(description) && Utf16Length(description) <= MaxDescriptionLength
  }

  /** [Required] and [MaxLength(50)]. */
  predicate CategoryOk(category: string)
  {
    !IsBlank(category) && Utf16Length(category) <= MaxCategoryLength
  }

  /** The type number names a member of TransactionType. */
  predicate TypeOk(typeCode: int)
  {
    TypeFromCode(typeCode).Some?
  }

  /** The names of the fields whose checks fail, in declaration order. */
  function FieldErrors(amount: int, description: string, category: string, typeCode: int): (errs: seq<string>)
    ensures errs == [] <==> AmountOk(amount) && DescriptionOk(description) && CategoryOk(category) && TypeOk(typeCode)
    ensures "Amount" in errs <==> !AmountOk(amount)
    ensures "Description" in errs <==> !DescriptionOk(description)
    ensures "Category" in errs <==> !CategoryOk(category)
    ensures "Type" in errs <==> !TypeOk(typeCode)
  {
    Check(AmountOk(amount), "Amount") + Check(DescriptionOk(description), "Description")
    + Check(CategoryOk(category), "Category") + Check(TypeOk(typeCode), "Type")
  }

  predicate ValidCreate(d: CreateTransactionDto)
  {
    AmountOk(d.amount) && DescriptionOk(d.description) && CategoryOk(d.category) && TypeOk(d.typeCode)
  }

  function CreateErrors(d: CreateTransactionDto): (errs: seq<string>)
    ensures errs == [] <==> ValidCreate(d)
  {
    FieldErrors(d.amount, d.description, d.category, d.typeCode)
  }

  predicate ValidUpdate(d: UpdateTransactionDto)
  {
    AmountOk(d.amount) && DescriptionOk(d.description) && CategoryOk(d.category) && TypeOk(d.typeCode)
  }

  function UpdateErrors(d: UpdateTransactionDto): (errs: seq<string>)
    ensures errs == [] <==> ValidUpdate(d)
  {
    FieldErrors(d.amount, d.description, d.category, d.typeCode)
  }

  function AsCreate(d: UpdateTransactionDto): CreateTransactionDto
  {
    CreateTransactionDto(d.amount, d.description, d.date, d.category, d.typeCode)
  }

  /** The update body is checked exactly as the create body. */
  lemma UpdateValidationIsCreateValidation(d: UpdateTransactionDto)
    ensures ValidUpdate(d) <==> ValidCreate(AsCreate(d))
    ensures UpdateErrors(d) == CreateErrors(AsCreate(d))
  {
  }

  /** A valid body is a positive amount with non-blank text within the
      column limits, so the row it produces fits the schema. */
  lemma ValidCreateFitsColumns(d: CreateTransactionDto)
    requires ValidCreate(d)
    ensures d.amount > 0
    ensures 0 < |d.description| <= MaxDescriptionLength
    ensures 0 < |d.category| <= MaxCategoryLength
  {
    Utf16LengthBounds(d.description);
    Utf16LengthBounds(d.category);
  }

  /** The checks the attributes perform as written: nothing constrains
      Type, since [Required] on an enum that is not nullable always passes. */
  predicate ValidCreateAsWritten(d: CreateTransactionDto)
  {
    AmountOk(d.amount) && DescriptionOk(d.description) && CategoryOk(d.category)
  }

  /** A body with type number 3 passes the checks as written although 3
      names no TransactionType; the corrected check refuses it. */
  lemma UndefinedTypeAccepted()
    ensures var d := CreateTransactionDto(100, "Lunch", CalendarTime(2024, 3, 15, 0), "Food", 3);
      ValidCreateAsWritten(d) && TypeFromCode(d.typeCode).None? && !ValidCreate(d)
  {
    var d := CreateTransactionDto(100, "Lunch", CalendarTime(2024, 3, 15, 0), "Food", 3);
    assert !IsWhiteSpace(d.description[0]) && !IsWhiteSpace(d.category[0]);
  }

  /** Under the corrected check a valid body is valid as written and its
      type number always names a member. */
  lemma ValidCreateDecodesType(d: CreateTransactionDto)
    ensures ValidCreate(d) <==> ValidCreateAsWritten(d) && TypeFromCode(d.typeCode).Some?
  {
  }
}

=== FILE: transaction_laws.dfy ===
/** What the transaction endpoints keep true of the store, how they
    compose, and what they leave alone. */
module TransactionLaws {
  import opened Outcomes
  import opened Calendar
  import opened Text
  import opened Seqs
  import opened TransactionModel
  import opened TransactionDtos
  import opened AppDb
  import opened Transactions

  /** Every stored row passed the body checks when it was written. */
  ghost predicate RowsValidated(db: Db)
  {
    forall t :: t in db.transactions ==>
      t.amount >= MinAmountCents && !IsBlank(t.description) && !IsBlank(t.category)
  }

  /** The store as the endpoints leave it. */
  ghost predicate Invariant(db: Db)
  {
    SchemaValid(db) && RowsValidated(db)
  }

  lemma EmptySatisfiesInvariant()
    ensures Invariant(Empty)
  {
  }

  lemma CreatePreservesInvariant(db: Db, u: int, d: CreateTransactionDto, now: DateTime)
    requires Invariant(db)
    ensures Invariant(Create(db, u, d, now).db)
  {
    var r := Create(db, u, d, now);
    if r.response.Ok? {
      ValidCreateFitsColumns(d);
      var n := |db.transactions|;
      var row := r.db.transactions[n];
      assert r.db.transactions == db.transactions + [row];
      forall t | t in db.transactions
        ensures TransactionIdOf(t) != TransactionIdOf(row)
      {
      }
      DistinctAppend(db.transactions, row, TransactionIdOf);
    }
  }

  /** A body whose amount is zero or negative is refused by validation
      and nothing is stored. */
  lemma CreateRejectsNonPositiveAmount(db: Db, u: int, d: CreateTransactionDto, now: DateTime)
    requires d.amount <= 0
    ensures Create(db, u, d, now) == Step(db, Err(ValidationFailed(CreateErrors(d))))
    ensures "Amount" in CreateErrors(d)
  {
  }

  lemma UpdatePreservesInvariant(db: Db, u: int, id: int, d: UpdateTransactionDto)
    requires Invariant(db)
    ensures Invariant(Update(db, u, id, d).db)
  {
    var r := Update(db, u, id, d);
    if r.response.Ok? {
      Utf16LengthBounds(d.description);
      Utf16LengthBounds(d.category);
      var i := FindOwned(db.transactions, u, id).value;
      var row := r.db.transactions[i];
      assert r.db.transactions == db.transactions[i := row];
      DistinctUpdate(db.transactions, i, row, TransactionIdOf);
      assert db.transactions[i] in db.transactions;
      forall t | t in r.db.transactions
        ensures t == row || t in db.transactions
      {
        var k :| 0 <= k < |r.db.transactions| && r.db.transactions[k] == t;
        if k != i {
          assert t == db.transactions[k];
        }
      }
    }
  }

  lemma DeletePreservesInvariant(db: Db, u: int, id: int)
    requires Invariant(db)
    ensures Invariant(Delete(db, u, id).db)
  {
    if OwnsTransaction(db.transactions, u, id) {
      var i := FindOwned(db.transactions, u, id).value;
      var rows := db.transactions[..i] + db.transactions[i + 1..];
      DistinctRemove(db.transactions, i, TransactionIdOf);
      RemoveMembers(db.transactions, i, TransactionIdOf);
      FewerRowsKeepInvariant(db, rows);
      assert Delete(db, u, id).db == db.(transactions := rows);
    }
  }

  /** Keeping some of the rows, with distinct ids, keeps the invariant. */
  lemma FewerRowsKeepInvariant(db: Db, rows: seq<Transaction>)
    requires Invariant(db)
    requires forall t :: t in rows ==> t in db.transactions
    requires DistinctBy(rows, TransactionIdOf)
    ensures Invariant(db.(transactions := rows))
  {
  }

  /** With distinct ids, the caller's row with a given id is the one
      Get shows. */
  lemma {:induction false} GetShowsTheRow(db: Db, u: int, t: Transaction)
    requires DistinctBy(db.transactions, TransactionIdOf)
    requires t in db.transactions && t.userId == u
    ensures Get(db, u, t.id) == Ok(ToDto(t))
  {
    var i := FindOwned(db.transactions, u, t.id).value;
    var k :| 0 <= k < |db.transactions| && db.transactions[k] == t;
    assert TransactionIdOf(db.transactions[i]) == TransactionIdOf(db.transactions[k]);
  }

  /** A created row can be read back as the response showed it. */
  lemma CreateThenGet(db: Db, u: int, d: CreateTransactionDto, now: DateTime)
    requires Invariant(db)
    requires Create(db, u, d, now).response.Ok?
    ensures var r := Create(db, u, d, now);
      Get(r.db, u, r.response.value.id) == r.response
  {
    var r := Create(db, u, d, now);
    CreatePreservesInvariant(db, u, d, now);
    GetShowsTheRow(r.db, u, r.db.transactions[|db.transactions|]);
  }

  /** An updated row reads back as the response showed it. */
  lemma UpdateThenGet(db: Db, u: int, id: int, d: UpdateTransactionDto)
    requires Invariant(db)
    requires Update(db, u, id, d).response.Ok?
    ensures var r := Update(db, u, id, d);
      Get(r.db, u, id) == r.response
  {
    var r := Update(db, u, id, d);
    var i := FindOwned(db.transactions, u, id).value;
    UpdatePreservesInvariant(db, u, id, d);
    GetShowsTheRow(r.db, u, r.db.transactions[i]);
  }

  /** After a delete the id is gone for good. */
  lemma DeleteThenGet(db: Db, u: int, id: int)
    requires Invariant(db)
    requires Delete(db, u, id).response.Ok?
    ensures Get(Delete(db, u, id).db, u, id) == Err(NotFound(NotFoundMessage))
  {
    var r := Delete(db, u, id);
    var i := FindOwned(db.transactions, u, id).value;
    RemoveMembers(db.transactions, i, TransactionIdOf);
  }

  /** Creating a row leaves every other user's rows as they were. */
  lemma CreateKeepsOthers(db: Db, u: int, d: CreateTransactionDto, now: DateTime, v: int)
    requires v != u
    ensures Owned(Create(db, u, d, now).db.transactions, v) == Owned(db.transactions, v)
    ensures Create(db, u, d, now).db.users == db.users
  {
    var r := Create(db, u, d, now);
    if r.response.Ok? {
      var row := r.db.transactions[|db.transactions|];
      assert r.db.transactions == db.transactions + [row];
      OwnedAppend(db.transactions, [row], v);
      assert Owned([row], v) == [];
    }
  }

  /** Updating a row leaves every other user's rows as they were. */
  lemma UpdateKeepsOthers(db: Db, u: int, id: int, d: UpdateTransactionDto, v: int)
    requires v != u
    ensures Owned(Update(db, u, id, d).db.transactions, v) == Owned(db.transactions, v)
    ensures Update(db, u, id, d).db.users == db.users
  {
    var r := Update(db, u, id, d);
    if r.response.Ok? {
      var i := FindOwned(db.transactions, u, id).value;
      var row := r.db.transactions[i];
      assert r.db.transactions == db.transactions[i := row];
      FilterReplace(db.transactions, i, row, (t: Transaction) => t.userId == v);
    }
  }

  /** Deleting a row leaves every other user's rows as they were. */
  lemma DeleteKeepsOthers(db: Db, u: int, id: int, v: int)
    requires v != u
    ensures Owned(Delete(db, u, id).db.transactions, v) == Owned(db.transactions, v)
    ensures Delete(db, u, id).db.users == db.users
  {
    if OwnsTransaction(db.transactions, u, id) {
      var i := FindOwned(db.transactions, u, id).value;
      FilterRemove(db.transactions, i, (t: Transaction) => t.userId == v);
    }
  }

  /** Another user's row is indistinguishable from a missing one: read,
      update and delete all answer 404 and change nothing. */
  lemma ForeignRowLooksMissing(db: Db, u: int, t: Transaction, d: UpdateTransactionDto)
    requires DistinctBy(db.transactions, TransactionIdOf)
    requires t in db.transactions && t.userId != u
    requires ValidUpdate(d)
    ensures Get(db, u, t.id) == Err(NotFound(NotFoundMessage))
    ensures Update(db, u, t.id, d) == Step(db, Err(NotFound(NotFoundMessage)))
    ensures Delete(db, u, t.id) == Step(db, Err(NotFound(NotFoundMessage)))
  {
    forall t' | t' in db.transactions && t'.id == t.id
      ensures t' == t
    {
      var a :| 0 <= a < |db.transactions| && db.transactions[a] == t;
      var b :| 0 <= b < |db.transactions| && db.transactions[b] == t';
      assert TransactionIdOf(db.transactions[a]) == TransactionIdOf(db.transactions[b]);
    }
  }
}

=== FILE: transaction_model.dfy ===
/** The Transaction entity and its TransactionType enum. Amounts are
    whole cents: the column is decimal(18,2), so every stored amount has
    exactly two fractional digits. */
module TransactionModel {
  import opened Outcomes
  import opened Calendar

  /** The enum with its numeric values Income = 1 and Expense = 2. */
  datatype TransactionType = Income | Expense
  {
    function Code(): (c: int)
      ensures c == 1 || c == 2
    {
      match this
      case Income => 1
      case Expense => 2
    }
  }

  /** The enum member with the given numeric value, if there is one. */
  function TypeFromCode(code: int): (r: Option<TransactionType>)
    ensures r.Some? <==> code == 1 || code == 2
    ensures r.Some? ==> r.value.Code() == code
  {
    if code == 1 then Some(Income)
    else if code == 2 then Some(Expense)
    else None
  }

  /** The two members have distinct codes and decode back to themselves. */
  lemma TypeCodeRoundTrip(t: TransactionType)
    ensures TypeFromCode(t.Code()) == Some(t)
    ensures t != Income ==> t == Expense
  {
  }

  /** One stored row. It belongs to exactly one user, userId. */
  datatype Transaction = Transaction(
    id: int,
    amount: int,
    description: string,
    date: DateTime,
    category: string,
    transactionType: TransactionType,
    createdAt: DateTime,
    userId: int)
}

=== FILE: transactions.dfy ===
/** The transaction endpoints as pure operations on the store. Every
    operation takes the caller's user id, which the framework takes from
    the validated token, and only ever touches rows owned by it. */
module Transactions {
  import opened Outcomes
  import opened Calendar
  import opened Text
  import opened Seqs
  import opened TransactionModel
  import opened TransactionDtos
  import opened AppDb

  const DefaultPage: int := 1
  const DefaultPageSize: int := 50
  const NotFoundMessage: string := "Transaction not found"
  const CreateFailedMessage: string := "An error occurred while creating the transaction"
  const UpdateFailedMessage: string := "An error occurred while updating the transaction"

  /** The query string of the list endpoint. Absent parameters take
      the defaults page 1 and page size 50. */
  datatype ListQuery = ListQuery(page: int, pageSize: int, category: Option<string>, transactionType: Option<TransactionType>)

  /** The query of a bare GET api/transactions: every parameter absent. */
  const DefaultQuery: ListQuery := ListQuery(DefaultPage, DefaultPageSize, None, None)

  /** The listed page with the X-Total-Count, X-Page and X-Page-Size headers. */
  datatype ListResponse = ListResponse(items: seq<TransactionDto>, totalCount: int, page: int, pageSize: int)

  function Min(a: int, b: int): int
  {
    if a <= b then a else b
  }

  /** The rows a stored row set and user show to a client, in order. */
  function Project(rows: seq<Transaction>): (r: seq<TransactionDto>)
    ensures |r| == |rows|
    ensures forall i :: 0 <= i < |rows| ==> r[i] == ToDto(rows[i])
  {
    seq(|rows|, i requires 0 <= i < |rows| => ToDto(rows[i]))
  }

  /** The category filter keeps a row when the filter is absent or
      empty, or when the lower-cased filter occurs in the lower-cased
      category. */
  ghost predicate CategoryFilterKeeps(t: Transaction, filter: Option<string>)
  {
    filter.None? || |filter.value| == 0 || IsSubstring(Lower(filter.value), Lower(t.category))
  }

  ghost predicate TypeFilterKeeps(t: Transaction, filter: Option<TransactionType>)
  {
    filter.None? || t.transactionType == filter.value
  }

  /** The caller's rows that pass both filters, in store order. */
  function Matching(rows: seq<Transaction>, u: int, category: Option<string>, ty: Option<TransactionType>): (r: seq<Transaction>)
    ensures forall t :: t in r <==>
      t in rows && t.userId == u && CategoryFilterKeeps(t, category) && TypeFilterKeeps(t, ty)
  {
    var own := Owned(rows, u);
    var byCategory :=
      if category.Some? && |category.value| > 0 then
        Filter(own, (t: Transaction) => Contains(Lower(t.category), Lower(category.value)))
      else own;
    if ty.Some? then
      Filter(byCategory, (t: Transaction) => t.transactionType == ty.value)
    else byCategory
  }

  /** Each matching row appears exactly as often as it is stored, so
      the count header counts the matching rows of the store. */
  lemma MatchingCounts(rows: seq<Transaction>, u: int, category: Option<string>, ty: Option<TransactionType>)
    ensures forall t ::
              multiset(Matching(rows, u, category, ty))[t]
              == if t.userId == u && CategoryFilterKeeps(t, category) && TypeFilterKeeps(t, ty) then multiset(rows)[t] else 0
  {
    var own := Owned(rows, u);
    OwnedCounts(rows, u);
    var byCategory :=
      if category.Some? && |category.value| > 0 then
        Filter(own, (t: Transaction) => Contains(Lower(t.category), Lower(category.value)))
      else own;
    if category.Some? && |category.value| > 0 {
      FilterCounts(own, (t: Transaction) => Contains(Lower(t.category), Lower(category.value)));
    }
    if ty.Some? {
      FilterCounts(byCategory, (t: Transaction) => t.transactionType == ty.value);
    }
  }

  function DateKey(t: Transaction): int
  {
    Ticks(t.date)
  }

  /** OrderByDescending(t => t.Date). The order of rows with equal dates
      is left to the database; this one keeps them in store order. */
  function NewestFirst(rows: seq<Transaction>): (r: seq<Transaction>)
    ensures multiset(r) == multiset(rows)
  {
    SortDesc(rows, DateKey)
  }

  /** Kept apart from NewestFirst's contract so that proofs that do not
      need the order do not pay for it. */
  lemma NewestFirstIsSorted(rows: seq<Transaction>)
    ensures NonIncreasing(NewestFirst(rows), DateKey)
  {
  }

  /** Skip((page - 1) * pageSize), computed without overflow: page p
      starts one page size after page p - 1. */
  function Offset(page: int, pageSize: int): (off: int)
    requires page >= 1 && pageSize >= 1
    ensures off >= 0
    ensures off < pageSize <==> page == 1
    decreases page
  {
    if page == 1 then 0 else Offset(page - 1, pageSize) + pageSize
  }

  lemma {:induction false} OffsetIsProduct(page: int, pageSize: int)
    requires page >= 1 && pageSize >= 1
    ensures Offset(page, pageSize) == (page - 1) * pageSize
    decreases page
  {
    if page > 1 {
      OffsetIsProduct(page - 1, pageSize);
    }
  }

  /** Skip(offset).Take(size) on a sequence. */
  function Slice<T>(s: seq<T>, offset: int, size: int): (r: seq<T>)
    requires offset >= 0 && size >= 0
    ensures |r| == (if offset < |s| then Min(size, |s| - offset) else 0)
    ensures forall k :: 0 <= k < |r| ==> r[k] == s[offset + k]
  {
    s[Min(offset, |s|)..Min(offset + size, |s|)]
  }

  /** GET api/transactions. Requires the page and page size the
      endpoint is meant to be called with; below 1 the outcome is up to
      the database. */
  function List(db: Db, u: int, q: ListQuery): (r: ListResponse)
    requires q.page >= 1 && q.pageSize >= 1
    ensures r.totalCount == |Matching(db.transactions, u, q.category, q.transactionType)|
    ensures r.page == q.page && r.pageSize == q.pageSize
    ensures |r.items| <= q.pageSize
  {
    var matching := Matching(db.transactions, u, q.category, q.transactionType);
    var page := Slice(NewestFirst(matching), Offset(q.page, q.pageSize), q.pageSize);
    ListResponse(Project(page), |matching|, q.page, q.pageSize)
  }

  /** item shows a row of the caller that passes the query's filters. */
  ghost predicate IsOwnMatchingRow(db: Db, u: int, q: ListQuery, item: TransactionDto)
  {
    exists t :: t in db.transactions && t.userId == u && CategoryFilterKeeps(t, q.category)
      && TypeFilterKeeps(t, q.transactionType) && ToDto(t) == item
  }

  /** The page holds the rows from offset (page - 1) * pageSize of the
      caller's matching rows sorted newest first, as many as fit in one
      page, in that order. */
  lemma ListIsPageOfNewestFirst(db: Db, u: int, q: ListQuery)
    requires q.page >= 1 && q.pageSize >= 1
    ensures var items := List(db, u, q).items;
      var sorted := NewestFirst(Matching(db.transactions, u, q.category, q.transactionType));
      var off := Offset(q.page, q.pageSize);
      && |items| == (if off < |sorted| then Min(q.pageSize, |sorted| - off) else 0)
      && forall k :: 0 <= k < |items| ==> items[k] == ToDto(sorted[off + k])
  {
    var sorted := NewestFirst(Matching(db.transactions, u, q.category, q.transactionType));
    var page := Slice(sorted, Offset(q.page, q.pageSize), q.pageSize);
    ListItemsAreSlice(db, u, q);
    assert List(db, u, q).items == Project(page);
  }

  /** Every listed item is the projection of one of the caller's rows
      that passes the filters. */
  lemma {:induction false} ListShowsOnlyOwnMatchingRows(db: Db, u: int, q: ListQuery)
    requires q.page >= 1 && q.pageSize >= 1
    ensures forall item :: item in List(db, u, q).items ==> IsOwnMatchingRow(db, u, q, item)
  {
    var matching := Matching(db.transactions, u, q.category, q.transactionType);
    var sorted := NewestFirst(matching);
    var off := Offset(q.page, q.pageSize);
    var items := List(db, u, q).items;
    assert items == Project(Slice(sorted, off, q.pageSize));
    forall k | 0 <= k < |items|
      ensures IsOwnMatchingRow(db, u, q, items[k])
    {
      SortedRowsComeFromInput(matching, off + k);
      assert sorted[off + k] in matching;
    }
  }

  lemma SortedRowsComeFromInput(rows: seq<Transaction>, i: int)
    requires 0 <= i < |NewestFirst(rows)|
    ensures NewestFirst(rows)[i] in rows
  {
    assert NewestFirst(rows)[i] in multiset(NewestFirst(rows));
  }

  /** Items on a page are newest first. */
  lemma ListIsNewestFirst(db: Db, u: int, q: ListQuery)
    requires q.page >= 1 && q.pageSize >= 1
    ensures var items := List(db, u, q).items;
      forall i, j :: 0 <= i < j < |items| ==> Ticks(items[i].date) >= Ticks(items[j].date)
  {
    var sorted := NewestFirst(Matching(db.transactions, u, q.category, q.transactionType));
    var off := Offset(q.page, q.pageSize);
    var items := List(db, u, q).items;
    NewestFirstIsSorted(Matching(db.transactions, u, q.category, q.transactionType));
    forall i, j | 0 <= i < j < |items|
      ensures Ticks(items[i].date) >= Ticks(items[j].date)
    {
      assert DateKey(sorted[off + i]) >= DateKey(sorted[off + j]);
    }
  }

  /** Page p + 1 starts where page p ends: it is the slice of the same
      sorted rows one page size further on (together with
      ListItemsAreSlice and PagesTile, pages tile the result without
      gaps or overlaps). */
  lemma NextPageItems(db: Db, u: int, q: ListQuery, next: ListQuery)
    requires q.page >= 1 && q.pageSize >= 1
    requires next == q.(page := q.page + 1)
    ensures List(db, u, next).items
      == Project(Slice(NewestFirst(Matching(db.transactions, u, q.category, q.transactionType)), Offset(q.page, q.pageSize) + q.pageSize, q.pageSize))
  {
    ListItemsAreSlice(db, u, next);
    OffsetNext(q.page, q.pageSize);
  }

  /** Page 2 of size 2 over five rows of the caller, stored with
      strictly decreasing dates, holds the third and fourth rows, in that
      order, and the total count is five. The dates are distinct, so the
      order does not depend on how ties are broken. */
  lemma SecondPageOfFive(db: Db, u: int)
    requires |db.transactions| == 5
    requires forall t :: t in db.transactions ==> t.userId == u
    requires forall i, j :: 0 <= i < j < |db.transactions| ==> DateKey(db.transactions[i]) > DateKey(db.transactions[j])
    ensures List(db, u, ListQuery(2, 2, None, None))
      == ListResponse([ToDto(db.transactions[2]), ToDto(db.transactions[3])], 5, 2, 2)
  {
    var rows, q := db.transactions, ListQuery(2, 2, None, None);
    assert NonIncreasing(rows, DateKey);
    AllOwnedAllMatch(rows, u);
    SecondPageOfSorted(rows);
    ListItemsAreSlice(db, u, q);
  }

  /** With no filters, a caller who owns every row matches every row. */
  lemma AllOwnedAllMatch(rows: seq<Transaction>, u: int)
    requires forall t :: t in rows ==> t.userId == u
    ensures Matching(rows, u, None, None) == rows
  {
    FilterAll(rows, (t: Transaction) => t.userId == u);
  }

  lemma SecondPageOfSorted(rows: seq<Transaction>)
    requires |rows| == 5 && NonIncreasing(rows, DateKey)
    ensures Project(Slice(NewestFirst(rows), Offset(2, 2), 2)) == [ToDto(rows[2]), ToDto(rows[3])]
  {
    SortDescKeepsSorted(rows, DateKey);
    assert Offset(2, 2) == 2;
    assert Slice(rows, 2, 2) == [rows[2], rows[3]];
  }

  lemma OffsetNext(page: int, pageSize: int)
    requires page >= 1 && pageSize >= 1
    ensures Offset(page + 1, pageSize) == Offset(page, pageSize) + pageSize
  {
  }

  lemma PagesTile(s: seq<Transaction>, off: int, size: int)
    requires off >= 0 && size >= 0
    ensures Project(Slice(s, off, size)) + Project(Slice(s, off + size, size))
      == Project(Slice(s, off, 2 * size))
  {
    SlicesTile(s, off, size);
    ProjectAppend(Slice(s, off, size), Slice(s, off + size, size));
  }

  lemma ListItemsAreSlice(db: Db, u: int, q: ListQuery)
    requires q.page >= 1 && q.pageSize >= 1
    ensures List(db, u, q).items
      == Project(Slice(NewestFirst(Matching(db.transactions, u, q.category, q.transactionType)), Offset(q.page, q.pageSize), q.pageSize))
  {
  }

  lemma {:induction false} SlicesTile<T>(s: seq<T>, off: int, size: int)
    requires off >= 0 && size >= 0
    ensures Slice(s, off, size) + Slice(s, off + size, size) == Slice(s, off, 2 * size)
  {
    var a, b, c := Min(off, |s|), Min(off + size, |s|), Min(off + 2 * size, |s|);
    assert a <= b <= c <= |s|;
    assert s[a..b] + s[b..c] == s[a..c];
  }

  lemma ProjectAppend(x: seq<Transaction>, y: seq<Transaction>)
    ensures Project(x + y) == Project(x) + Project(y)
  {
  }

  /** The list reads nothing but the caller's rows: two stores in which
      the caller owns the same rows list alike. */
  lemma ListSeesOnlyOwnRows(db1: Db, db2: Db, u: int, q: ListQuery)
    requires q.page >= 1 && q.pageSize >= 1
    requires Owned(db1.transactions, u) == Owned(db2.transactions, u)
    ensures List(db1, u, q) == List(db2, u, q)
  {
  }

  /** The first row owned by u with the given id, by index. */
  function FindOwned(rows: seq<Transaction>, u: int, id: int): (r: Option<nat>)
    ensures r.Some? ==> r.value < |rows| && rows[r.value].id == id && rows[r.value].userId == u
    ensures r.Some? ==> forall j :: 0 <= j < r.value ==> !(rows[j].id == id && rows[j].userId == u)
    ensures r.None? <==> !OwnsTransaction(rows, u, id)
    decreases |rows|
  {
    if |rows| == 0 then None
    else if rows[0].id == id && rows[0].userId == u then Some(0)
    else
      match FindOwned(rows[1..], u, id)
      case None =>
        assert forall t :: t in rows ==> t == rows[0] || t in rows[1..];
        None
      case Some(i) => Some(i + 1)
  }

  predicate OwnsTransaction(rows: seq<Transaction>, u: int, id: int)
  {
    exists t :: t in rows && t.id == id && t.userId == u
  }

  /** GET api/transactions/{id}. */
  function Get(db: Db, u: int, id: int): (r: Result<TransactionDto>)
    ensures r.Ok? <==> OwnsTransaction(db.transactions, u, id)
    ensures r.Ok? ==> exists t :: t in db.transactions && t.id == id && t.userId == u && r.value == ToDto(t)
    ensures r.Err? ==> r.error == NotFound(NotFoundMessage)
  {
    match FindOwned(db.transactions, u, id)
    case None => Err(NotFound(NotFoundMessage))
    case Some(i) => Ok(ToDto(db.transactions[i]))
  }

  /** The row's editable fields hold the body's values. */
  predicate CopiedFrom(t: Transaction, amount: int, description: string, date: DateTime, category: string, typeCode: int)
  {
    && t.amount == amount
    && t.description == description
    && t.date == date
    && t.category == category
    && t.transactionType.Code() == typeCode
  }

  /** POST api/transactions. The body is checked first; the insert then
      fails if the amount overflows decimal(18,2) or the caller's user
      row is missing (the foreign key), and a failed insert stores nothing. */
  function Create(db: Db, u: int, d: CreateTransactionDto, now: DateTime): (r: Step<TransactionDto>)
    ensures !ValidCreate(d) ==> r == Step(db, Err(ValidationFailed(CreateErrors(d))))
    ensures r.response.Ok? <==> ValidCreate(d) && FitsAmountColumn(d.amount) && UserExists(db.users, u)
    ensures r.response.Err? ==> r.db == db
    ensures r.response.Ok? ==>
      var n := |db.transactions|;
      && r.db.users == db.users
      && r.db.nextUserId == db.nextUserId
      && r.db.nextTransactionId == db.nextTransactionId + 1
      && |r.db.transactions| == n + 1
      && r.db.transactions[..n] == db.transactions
      && r.db.transactions[n].id == db.nextTransactionId
      && r.db.transactions[n].userId == u
      && r.db.transactions[n].createdAt == now
      && CopiedFrom(r.db.transactions[n], d.amount, d.description, d.date, d.category, d.typeCode)
      && r.response.value == ToDto(r.db.transactions[n])
  {
    if !ValidCreate(d) then
      Step(db, Err(ValidationFailed(CreateErrors(d))))
    else if !FitsAmountColumn(d.amount) || !UserExists(db.users, u) then
      Step(db, Err(ServerError(CreateFailedMessage)))
    else
      var row := Transaction(db.nextTransactionId, d.amount, d.description, d.date, d.category,
                             TypeFromCode(d.typeCode).value, now, u);
      var rows := db.transactions + [row];
      assert rows[..|db.transactions|] == db.transactions;
      Step(db.(transactions := rows, nextTransactionId := db.nextTransactionId + 1), Ok(ToDto(row)))
  }

  /** PUT api/transactions/{id}. Overwrites the editable fields of the
      caller's row with that id; an amount the decimal(18,2) column
      cannot hold makes the save fail with 500 and changes nothing. */
  function Update(db: Db, u: int, id: int, d: UpdateTransactionDto): (r: Step<TransactionDto>)
    ensures !ValidUpdate(d) ==> r == Step(db, Err(ValidationFailed(UpdateErrors(d))))
    ensures ValidUpdate(d) && !OwnsTransaction(db.transactions, u, id) ==> r == Step(db, Err(NotFound(NotFoundMessage)))
    ensures ValidUpdate(d) && OwnsTransaction(db.transactions, u, id) && !FitsAmountColumn(d.amount) ==>
      r == Step(db, Err(ServerError(UpdateFailedMessage)))
    ensures r.response.Ok? <==> ValidUpdate(d) && OwnsTransaction(db.transactions, u, id) && FitsAmountColumn(d.amount)
    ensures r.response.Err? ==> r.db == db
    ensures r.response.Ok? ==>
      var i := FindOwned(db.transactions, u, id).value;
      var oldRow := db.transactions[i];
      && r.db.users == db.users
      && r.db.nextUserId == db.nextUserId
      && r.db.nextTransactionId == db.nextTransactionId
      && |r.db.transactions| == |db.transactions|
      && (forall j :: 0 <= j < |db.transactions| && j != i ==> r.db.transactions[j] == db.transactions[j])
      && r.db.transactions[i].id == oldRow.id
      && r.db.transactions[i].userId == oldRow.userId
      && r.db.transactions[i].createdAt == oldRow.createdAt
      && CopiedFrom(r.db.transactions[i], d.amount, d.description, d.date, d.category, d.typeCode)
      && r.response.value == ToDto(r.db.transactions[i])
  {
    if !ValidUpdate(d) then
      Step(db, Err(ValidationFailed(UpdateErrors(d))))
    else
      match FindOwned(db.transactions, u, id)
      case None => Step(db, Err(NotFound(NotFoundMessage)))
      case Some(i) =>
        if !FitsAmountColumn(d.amount) then
          Step(db, Err(ServerError(UpdateFailedMessage)))
        else
          var row := db.transactions[i].(amount := d.amount, description := d.description, date := d.date,
                                         category := d.category, transactionType := TypeFromCode(d.typeCode).value);
          Step(db.(transactions := db.transactions[i := row]), Ok(ToDto(row)))
  }

  /** DELETE api/transactions/{id}. Removes the caller's row with that
      id and keeps every other row in order. */
  function Delete(db: Db, u: int, id: int): (r: Step<NoContent>)
    ensures !OwnsTransaction(db.transactions, u, id) ==> r == Step(db, Err(NotFound(NotFoundMessage)))
    ensures OwnsTransaction(db.transactions, u, id) ==>
      var i := FindOwned(db.transactions, u, id).value;
      && r.response == Ok(NoContent)
      && r.db.users == db.users
      && r.db.nextUserId == db.nextUserId
      && r.db.nextTransactionId == db.nextTransactionId
      && r.db.transactions == db.transactions[..i] + db.transactions[i + 1..]
      && multiset(r.db.transactions) == multiset(db.transactions) - multiset{db.transactions[i]}
  {
    match FindOwned(db.transactions, u, id)
    case None => Step(db, Err(NotFound(NotFoundMessage)))
    case Some(i) =>
      var rows := db.transactions;
      assert rows == rows[..i] + [rows[i]] + rows[i + 1..];
      Step(db.(transactions := rows[..i] + rows[i + 1..]), Ok(NoContent))
  }
}
